=== FILE: README.md ===
# TobCare credential lifecycle in Dafny

This project models the credential core of the TobCare patient back end:

- **The one-time-code store.** Six-digit codes are kept in a process-local map keyed by the lower-cased e-mail. Each code lives ten minutes, is purged lazily once it has expired, and is spent on its first successful use.
- **The field encryption helpers.**
  - AES-256-GCM envelopes of the form `iv:ciphertext:tag`.
  - Deterministic AES-256-CBC, whose IV is taken from SHA-256 of the key.
  - SHA-256 hashing of reset tokens.
- **The authentication service.**
  - OTP-gated patient registration, which creates a user and a patient row in one transaction.
  - Password login, followed by a login code that opens a session.
  - Refresh-token persistence.
  - Password-reset requests and password resets, which revoke every session of the user.
- **The daily sweep** that deletes expired refresh and reset tokens.
- **The request schema** that the registration body passes before it reaches the service.

## How it is modelled

The modules follow the source files:

| module | file(s) | role |
|---|---|---|
| `Otp` | otp.dfy | `OtpStore` class with `Store`, `Verify` and `Consume`, proved against the functions `Stored`, `AfterVerify` and `AfterConsume`. The `Math.random()` draws are a parameter. |
| `Encryption` | encryption.dfy | `Encrypt`, `Decrypt` and the deterministic pair as functions. Hex and `split(':')` are written out. |
| `Primitives` | primitives.dfy | UTF-8, AES-GCM, AES-CBC, SHA-256, bcrypt and JWT signing as a record of function values. The laws the proofs rely on are predicates over that record, for example "GCM open inverts GCM seal". |
| `Tables` | tables.dfy | The Prisma tables as sequences held by a `Database` class, the look-ups the service issues, and the integrity constraints (`Valid`). |
| `AuthRules` | auth_rules.dfy | Each service flow as a function from the old world to its outcome and the new world. The world is the tables, the OTP map and the mail outbox. |
| `AuthService` | auth_service.dfy | The flows as methods over the `Database`, `OtpStore` and `Mailer` objects. Each method is proved to produce exactly what its `AuthRules` function says. |
| `AuthProperties` | auth_properties.dfy | What the flows guarantee, stated and proved about the `AuthRules` functions. |
| `Cleanup` | cleanup.dfy | The sweep, as a method proved against the function `Sweep`. |
| `Validation` | validation.dfy | `registerPatientSchema` as predicates. |

Randomness and the clock are inputs:
- `Math.random()` draws;
- GCM nonces;
- bcrypt salts;
- the 32 reset-token bytes;
- `now` in milliseconds.

A `Fault` parameter selects which `deleteMany` of the sweep fails.

### Behaviour of the code that the model follows

Some of what the code does is not what a reader of the service's description would expect. In each case the model follows the code:

- **Inherited blood-type keys.** `BLOOD_TYPE_MAP` is a plain object, so a code such as `"constructor"` or `"toString"` finds an inherited `Object.prototype` member. That value is truthy, so it passes the `!bloodTypePrisma` check. The enum column then refuses it in `tx.patient.create`, and the transaction is rolled back. The model reports this as `InvalidEnumValue`, distinct from `InvalidBloodType`. Input that passed the request schema never reaches either error (`ValidatedRegistrationBloodTypeMapped`).
- **The code is spent early.** Registration consumes the code before it looks anything up. A registration that then fails still spends the code (`RegisterConsumesCode`).
- **Empty encrypted fields.** `decrypt(encrypt(""))` fails with the format error, because the ciphertext segment is empty (`EmptyPlaintextRejected`). Every non-empty text round-trips (`DecryptEncrypt`).
- **Decryption checks in order.** `decrypt` can fail at four points before authentication:
  - The format test at encryption.ts:23 fails when one of the first three segments is missing or empty.
  - `Buffer.from(_, 'hex')` reads the IV and the tag leniently: it drops a trailing odd digit and stops at the first bad pair. `createDecipheriv` then throws if the IV decoded to no bytes.
  - `setAuthTag` throws unless the tag decoded to 4, 8 or 12 to 16 bytes.
  - `decipher.update(_, 'hex', _)` throws when the ciphertext's JavaScript `length` is odd. That length counts UTF-16 code units, so a character outside the Basic Multilingual Plane counts two. The deterministic mode has the same test, and its IV is always 16 bytes.
  The lemmas are `DecryptChecksIvThenTag`, `DecryptRejectsOddCiphertext`, `OddLengthCountsCodeUnits` and `DecryptDeterministic`.
- **White-space phone numbers.** The schema accepts a phone number made only of white space, which normalises to the bare dialling code (`WhitespaceOnlyPhoneAccepted`).
- **The role-missing error.** It is the plain `Error('Patient role configuration missing')`. Both test files (src/services/tests/auth.service.test.ts:144-150 and src/services/__tests__/auth.service.test.ts:148-154) expect a `PATIENT_ROLE_NOT_FOUND` code instead.
- **The stored phone number.** The first test file expects the plaintext number to be stored (src/services/tests/auth.service.test.ts:173-176). The code stores `encryptDeterministic(fullPhone)`. `RegisterStoresRecoverablePii` proves that the stored value decrypts to the dialling code followed by the digits.

## Model

| member | source | states |
|---|---|---|
| Chars.Lower | src/utils/otp.ts:29 | ASCII `toLowerCase` maps each character on its own, keeps the length and leaves no upper-case letter |
| Chars.LowerIdempotent | src/utils/otp.ts:36 | lower-casing a key again changes nothing |
| Chars.LowerIgnoresCase | src/utils/otp.ts:36 | e-mails that differ only in letter case reach the same store key |
| Chars.DigitsOnly | src/services/auth.service.ts:63 | `replace(/\D/g, '')` keeps only decimal digits and never lengthens the string |
| Chars.DigitsOnlyAppend | src/services/auth.service.ts:63 | stripping non-digits distributes over concatenation |
| Chars.DigitsOnlyOfNonDigits | src/services/auth.service.ts:63 | a string without digits is removed entirely, so every non-digit is dropped |
| Chars.DigitsOnlyOfDigits | src/services/auth.service.ts:63 | an all-digit string is left unchanged, so normalising is idempotent |
| Chars.Utf16Length | dist/validation/auth.js:14-21 | the JavaScript length lies between the number of characters and twice that |
| Chars.BmpUtf16Length | dist/validation/auth.js:14-21 | within the Basic Multilingual Plane the JavaScript length is the character count |
| Otp.DigitOf | src/utils/otp.ts:19 | `Math.floor(r * 10)` of a value in [0, 1) is a decimal digit |
| Otp.DigitsOf | src/utils/otp.ts:16-22 | the draws spell a digit string of the same length |
| Otp.RandomDigits | src/utils/otp.ts:16-22 | the loop produces exactly one digit per draw, in draw order |
| Otp.GenerateOtp | src/utils/otp.ts:24-26 | a generated code is six decimal digits |
| Otp.Stored | src/utils/otp.ts:28-33 | storing overwrites the lower-cased key with the code and `now + 10 min`, and keeps every other key |
| Otp.Accepts | src/utils/otp.ts:35-43 | defines the answer of `verifyOtp` and `consumeOtp`: an entry exists for the lower-cased e-mail, `now` is not past its expiry, and the code is equal (properties: `Otp.StoreThenAccept`, `Otp.ExpiryBoundary`, `Otp.PurgeAfterExpiry`) |
| Otp.AfterVerify | src/utils/otp.ts:35-43 | at any instant after the expiry the entry is purged; without an entry, or with a live one, nothing changes; other keys are never touched |
| Otp.AfterConsume | src/utils/otp.ts:45-49 | consume deletes the entry exactly when the code is accepted; otherwise it behaves as verify |
| Otp.OtpStore.Store | src/utils/otp.ts:28-33 | the store's map afterwards is `Stored` of the old map |
| Otp.OtpStore.Verify | src/utils/otp.ts:35-43 | returns `Accepts` of the old map and leaves `AfterVerify` of it |
| Otp.OtpStore.Consume | src/utils/otp.ts:45-49 | returns `Accepts` of the old map and leaves `AfterConsume` of it |
| Otp.StoreThenAccept | src/utils/otp.ts:28-43 | a stored code is accepted under any casing of the e-mail exactly until its TTL runs out, and only that code |
| Otp.CaseInsensitiveLookup | src/utils/otp.ts:29-36 | a code stored for `A@B.com` is accepted for `a@b.com` |
| Otp.VerifyWithoutEntry | src/utils/otp.ts:36-37 | without an entry, verification fails and changes nothing |
| Otp.ExpiryBoundary | src/utils/otp.ts:38-41 | the entry is live at its expiry instant and refused and purged one millisecond later |
| Otp.PurgeAfterExpiry | src/utils/otp.ts:38-41 | at every instant after the expiry, any code is refused and both verify and consume delete the entry |
| Otp.VerifyLiveUnchanged | src/utils/otp.ts:38-42 | verifying a live entry never modifies the store, whatever code is offered |
| Otp.ConsumeAtMostOnce | src/utils/otp.ts:45-49 | after a successful consume, no code is accepted for that e-mail at any later time |
| Otp.WrongCodeKeepsEntry | src/utils/otp.ts:45-46 | a wrong code leaves a live entry in place, so the right code still works |
| Otp.ConsumeLeavesOtherKeys | src/utils/otp.ts:45-49 | consuming one e-mail's code never touches another key |
| Encryption.Hex | src/utils/encryption.ts:17 | hex output has two lower-case hex digits per byte |
| Encryption.UnHex | src/utils/encryption.ts:27-28 | `Buffer.from(s, 'hex')` yields at most half as many bytes as characters |
| Encryption.UnHexHex | src/utils/encryption.ts:17-28 | decoding hex inverts encoding it |
| Encryption.Split | src/utils/encryption.ts:21 | `split` always yields at least one segment |
| Encryption.JoinSplit | src/utils/encryption.ts:21 | joining the segments with the separator gives the string back |
| Encryption.SplitJoin | src/utils/encryption.ts:17-21 | segments free of `:` are recovered by splitting their join |
| Encryption.SplitThree | src/utils/encryption.ts:17-21 | an envelope of three separator-free parts splits into exactly those parts |
| Encryption.Encrypt | src/utils/encryption.ts:7-18 | the envelope splits into exactly the hex IV (24 digits), the hex GCM ciphertext and the hex tag of sealing the text's UTF-8 bytes |
| Encryption.WellFormedEnvelope | src/utils/encryption.ts:21-25 | defines the format check: the first three `:`-segments exist and are non-empty (properties: `Encryption.Decrypt`, `Encryption.DecryptRejectsTwoSegments`) |
| Encryption.DecipherReady | src/utils/encryption.ts:23-30 | defines when the decipher takes the envelope: well formed, an IV that decodes to at least one byte, and a tag that decodes to a length GCM allows (properties: `Encryption.Decrypt`, `Encryption.DecryptChecksIvThenTag`) |
| Encryption.Decrypt | src/utils/encryption.ts:20-36 | each error occurs exactly at its point in the source's order. The format error is for a missing or empty segment among the first three. The IV error is for a well-formed envelope whose IV decodes to no bytes. The tag error is for a tag length GCM refuses. The odd-length error is for an odd JavaScript length (UTF-16 code units) of the ciphertext segment once the decipher is ready. Any success comes from a ready envelope and is a UTF-8 decoding |
| Encryption.DecryptEncrypt | src/utils/encryption.ts:7-36 | every non-empty text round-trips through `encrypt` and `decrypt` |
| Encryption.EmptyPlaintextRejected | src/utils/encryption.ts:11-24 | the envelope of the empty text has an empty middle segment, which `decrypt` rejects |
| Encryption.DecryptIgnoresExtraSegments | src/utils/encryption.ts:21 | segments after the third do not change the result of `decrypt` |
| Encryption.DecryptRejectsTwoSegments | src/utils/encryption.ts:21-25 | data with fewer than three segments is refused before any decryption |
| Encryption.DecryptRejectsOddCiphertext | src/utils/encryption.ts:32 | once the IV and the tag are accepted, a ciphertext segment of odd JavaScript length is refused, whatever the key |
| Encryption.DecryptChecksIvThenTag | src/utils/encryption.ts:27-32 | an IV that decodes to nothing is refused first, and a one-byte tag next, even when the ciphertext is odd as well |
| Encryption.OddLengthCountsCodeUnits | src/utils/encryption.ts:32 | between any 12-byte IV and any 16-byte tag, one character outside the Basic Multilingual Plane counts two: beside one hex digit it is refused as odd, alone it is not |
| Encryption.DeterministicIv | src/utils/encryption.ts:43 | the fixed IV is 16 bytes |
| Encryption.EncryptDeterministic | src/utils/encryption.ts:42-48 | the output is even-length lower-case hex of the CBC encryption under the key-derived IV |
| Encryption.DecryptDeterministic | src/utils/encryption.ts:50-56 | it fails with the odd-length error exactly for input of odd JavaScript length (UTF-16 code units); any other failure is a decipher failure; any success is a UTF-8 decoding |
| Encryption.DecryptEncryptDeterministic | src/utils/encryption.ts:42-56 | the deterministic mode round-trips |
| Encryption.EncryptDeterministicInjective | src/utils/encryption.ts:38-48 | equal deterministic ciphertexts mean equal plaintexts, and conversely, so equality search on the phone is exact |
| Encryption.HashToken | src/utils/encryption.ts:62-64 | a token hash is 64 lower-case hex digits |
| Tables.Where | src/jobs/cleanup.ts:10-16 | `deleteMany` keeps exactly the rows its filter does not match, and never adds any |
| Tables.WhereIdempotent | src/jobs/cleanup.ts:10-24 | deleting with the same filter twice removes nothing more |
| Tables.WhereAppend | src/jobs/cleanup.ts:10-24 | filtering distributes over concatenation |
| Tables.WherePartition | src/jobs/cleanup.ts:10-26 | kept and deleted rows add up to the table |
| Tables.WhereAll | src/services/auth.service.ts:258-265 | a filter that matches no row leaves the table unchanged |
| Tables.WhereKeepsDistinct | src/services/auth.service.ts:258-260 | deleting rows keeps a unique column unique |
| Tables.FindRoleByName | src/services/auth.service.ts:49-51 | returns a role of that name, or none exists |
| Tables.FindRoleById | src/services/auth.service.ts:155 | returns the role with that id, or none exists |
| Tables.FindCountry | src/services/auth.service.ts:56-58 | returns the country with that id, or none exists |
| Tables.FindUserByIdentifier | src/services/auth.service.ts:127-135 | returns a user whose e-mail or username equals the identifier, or none matches |
| Tables.FindUserByEmail | src/services/auth.service.ts:196-198 | returns a user with that e-mail, or none has it |
| Tables.FindResetToken | src/services/auth.service.ts:237-240 | returns the reset row with that hash, or none has it |
| Tables.InsertUserKeepsConstraints | src/services/auth.service.ts:80-91 | a user with the next id, no clashing unique key and existing role and country keeps the user constraints |
| Tables.UpdateUserKeepsConstraints | src/services/auth.service.ts:167-170 | an update that keeps id, keys and references keeps the user constraints |
| Tables.InsertPatientKeepsConstraints | src/services/auth.service.ts:93-101 | the new user's patient row keeps patient ownership and one patient per user |
| Tables.InsertRefreshKeepsOwners | src/services/auth.service.ts:269-277 | a refresh row of an existing user keeps every refresh row owned |
| Tables.InsertResetKeepsConstraints | src/services/auth.service.ts:206-212 | a reset row of an existing user under a new hash keeps ownership and hash uniqueness |
| Tables.FilterRefreshKeepsOwners | src/services/auth.service.ts:263-265 | deleting refresh rows keeps the rest owned |
| Tables.FilterResetKeepsConstraints | src/services/auth.service.ts:258-260 | deleting reset rows keeps ownership and hash uniqueness |
| Mail.Mailer.Send | src/services/auth.service.ts:35-41 | a send appends its message to the outbox |
| Cleanup.UnexpiredRefreshTokens | src/jobs/cleanup.ts:10-16 | exactly the refresh rows with `expiresAt >= now` survive |
| Cleanup.UnexpiredResetTokens | src/jobs/cleanup.ts:18-24 | exactly the reset rows with `expiresAt >= now` survive |
| Cleanup.Sweep | src/jobs/cleanup.ts:6-30 | the sweep touches only the token tables, and the log reports a failure exactly when a delete failed |
| Cleanup.CleanupExpiredTokens | src/jobs/cleanup.ts:6-30 | the tables and log afterwards are `Sweep` of the old tables |
| Cleanup.SweepLeavesNoExpiredRows | src/jobs/cleanup.ts:10-24 | after a successful sweep no row with `expiresAt < now` remains |
| Cleanup.SweepKeepsLiveRows | src/jobs/cleanup.ts:7-24 | no sweep, failing or not, deletes a row that has not expired or adds one |
| Cleanup.SweepCounts | src/jobs/cleanup.ts:26 | the logged counts are the numbers of expired rows |
| Cleanup.SweepIdempotent | src/jobs/cleanup.ts:6-30 | a second sweep at the same instant removes nothing and reports zeros |
| Cleanup.SweepPreservesValid | src/jobs/cleanup.ts:6-30 | the sweep keeps the integrity constraints |
| Validation.ValidUsername | dist/validation/auth.js:9-13 | an accepted username has 3 to 50 characters and no `@` |
| Validation.ValidName | dist/validation/auth.js:14-21 | an accepted name is non-empty and at most 50 characters |
| Validation.ValidEmail | dist/validation/auth.js:22 | an accepted e-mail has at most 30 characters |
| Validation.ValidPhoneNumber | dist/validation/auth.js:23-27 | an accepted phone has 1 to 15 characters and at most 15 digits |
| Validation.ValidPassword | dist/validation/auth.js:28-33 | an accepted password has at least 4 characters, one of each required class |
| Validation.ValidAddress | dist/validation/auth.js:39 | an accepted address is non-empty |
| Validation.ValidOtp | dist/validation/auth.js:41 | an accepted code has six characters |
| Validation.RegisterPatientSchema | dist/validation/auth.js:7-46 | defines the schema: every field rule and the password-confirmation refinement (properties: `Validation.AcceptedRegistration`, `Validation.MismatchedConfirmationRejected`) |
| Validation.AcceptedRegistration | dist/validation/auth.js:7-46 | an accepted body has matching passwords, accepted terms, a positive country, a known blood type and gender, a six-digit code and an `@`-free username |
| Validation.MismatchedConfirmationRejected | dist/validation/auth.js:43-46 | any password/confirmation mismatch rejects the body |
| Validation.ValidOtpIffSixDigits | dist/validation/auth.js:41 | the code field is valid exactly when it is six decimal digits |
| Validation.WhitespaceOnlyPhoneAccepted | dist/validation/auth.js:23-27 | a single space passes the phone rule and has no digits |
| Validation.SendOtpSchema | dist/validation/auth.js:2-4 | defines the code request's schema: the `z.email` verdict, with no length limit (property: `Validation.SendOtpSchemaLooserThanRegistration`) |
| Validation.SendOtpSchemaLooserThanRegistration | dist/validation/auth.js:2-22 | every e-mail a valid registration body carries passes the code request, and a 31-character e-mail passes it but fails registration |
| AuthRules.BloodTypeCode | src/services/auth.service.ts:15-24 | every enum value has a key among the eight codes |
| AuthRules.LookupBloodType | src/services/auth.service.ts:15-24 | an own entry is found exactly for the eight codes, and it maps back to the code; an inherited member is found exactly for the `Object.prototype` names |
| AuthRules.FullPhone | src/services/auth.service.ts:63-64 | the full phone is the dialling code followed by digits only, no more of them than the typed number has characters |
| AuthRules.DecimalString | src/services/auth.service.ts:107 | `id.toString()` is a non-empty digit string without a leading zero |
| AuthRules.ResetTokensNotOwnedBy | src/services/auth.service.ts:258-260 | exactly the reset rows of other users survive |
| AuthRules.RefreshTokensNotOwnedBy | src/services/auth.service.ts:263-265 | exactly the refresh rows of other users survive |
| AuthRules.SendOtp | src/services/auth.service.ts:31-42 | defines `sendOtpToEmail` for a drawn code: the code is stored for the e-mail and one code message is appended (properties: `AuthService.SendOtpToEmail`, `AuthProperties.LoginSendsOneCode`) |
| AuthRules.SavedRefreshToken | src/services/auth.service.ts:269-277 | defines `saveRefreshToken`: one row with the token, the id parsed from the payload and a seven-day expiry (properties: `AuthProperties.DecimalRoundTrip`, `AuthProperties.RegisterSuccess`, `AuthProperties.VerifySuccess`) |
| AuthRules.Register | src/services/auth.service.ts:44-124 | defines `registerPatient`'s outcome and new state, check by check (properties: the `AuthProperties.Register*` lemmas) |
| AuthRules.Login | src/services/auth.service.ts:126-145 | defines `login`'s outcome and new state (properties: `AuthProperties.LoginFailuresAlike`, `AuthProperties.LoginSendsOneCode`) |
| AuthRules.VerifyLoginOtp | src/services/auth.service.ts:147-190 | defines `verifyLoginOtp`'s outcome and new state (properties: `AuthProperties.VerifyUnknownUser`, `AuthProperties.VerifyRefusedCode`, `AuthProperties.VerifySuccess`, `AuthProperties.VerifyPreservesValid`) |
| AuthRules.RequestPasswordReset | src/services/auth.service.ts:192-231 | defines `requestPasswordReset`'s outcome and new state (properties: the `AuthProperties.ResetRequest*` lemmas) |
| AuthRules.ResetPassword | src/services/auth.service.ts:233-267 | defines `resetPassword`'s outcome and new state; the owner is the user row with the token's `userId` (properties: `AuthProperties.ResetRejectsUnknownOrExpired`, `AuthProperties.ResetRevokesOwnerTokens`, `AuthProperties.ResetTokenSingleUse`) |
| AuthService.SendOtpToEmail | src/services/auth.service.ts:31-42 | the generated code is stored for the e-mail and one message carrying it is sent |
| AuthService.SaveRefreshToken | src/services/auth.service.ts:269-277 | one refresh row for the user, expiring in seven days, is appended |
| AuthService.RegisterPatient | src/services/auth.service.ts:44-124 | the result and the new tables and store are those `AuthRules.Register` gives for the old state |
| AuthService.Login | src/services/auth.service.ts:126-145 | the result, store and outbox are those `AuthRules.Login` gives |
| AuthService.VerifyLoginOtp | src/services/auth.service.ts:147-190 | the result, tables and store are those `AuthRules.VerifyLoginOtp` gives |
| AuthService.RequestPasswordReset | src/services/auth.service.ts:192-231 | the result, tables and outbox are those `AuthRules.RequestPasswordReset` gives |
| AuthService.ResetPassword | src/services/auth.service.ts:233-267 | the result and tables are those `AuthRules.ResetPassword` gives |
| AuthProperties.DecimalRoundTrip | src/services/auth.service.ts:106-114 | `BigInt(id.toString())` gives the id back, so the refresh row belongs to the user the token names |
| AuthProperties.DecimalStringInjective | src/services/auth.service.ts:107 | distinct ids give distinct payload strings |
| AuthProperties.BloodTypeCodesRoundTrip | src/services/auth.service.ts:15-24 | the map is a bijection between the eight codes and the enum |
| AuthProperties.ValidatedBloodTypeIsMapped | src/services/auth.service.ts:67-70 | a code passes the schema exactly when it is one of the map's own keys |
| AuthProperties.PrototypeKeyPassesMapCheck | src/services/auth.service.ts:67-70 | `constructor` and `toString` pass the map check although the schema refuses them |
| AuthProperties.FullPhoneNormalises | src/services/auth.service.ts:63-64 | pre-stripping the number, or padding it before or after with any text that holds no digit, does not change the stored phone |
| AuthProperties.GeneratedOtpIsValid | src/utils/otp.ts:24-26 | a generated code passes the request schema's code rule |
| AuthProperties.RegisterChecksOtpFirst | src/services/auth.service.ts:45-47 | a refused code fails `INVALID_OTP` whatever the tables hold, and writes nothing |
| AuthProperties.RegisterChecksRoleBeforeCountry | src/services/auth.service.ts:49-61 | a missing PATIENT role is reported whatever the countries are |
| AuthProperties.RegisterFailureWritesNothing | src/services/auth.service.ts:44-104 | any failed registration changes no table and sends no mail, and only the code is consumed |
| AuthProperties.RegisterRejectsUnknownBloodType | src/services/auth.service.ts:67-70 | an unmapped code fails `INVALID_BLOOD_TYPE` once the look-ups succeed |
| AuthProperties.RegisterBloodTypeFailures | src/services/auth.service.ts:67-98 | the two blood-type failures come from a missing entry and from an inherited one |
| AuthProperties.ValidatedRegistrationBloodTypeMapped | src/services/auth.service.ts:67-98 | a body that passed the schema never fails on its blood type |
| AuthProperties.RegisterSuccess | src/services/auth.service.ts:79-123 | success adds one user with the next id, the submitted username and e-mail and the PATIENT role, one patient row with the mapped blood type, and one seven-day refresh row with the returned token; it spends the code and changes nothing else |
| AuthProperties.RegisterAppendsBuiltRows | src/services/auth.service.ts:72-114 | on success, the rows appended are exactly those built from the request, and they clash with no existing user |
| AuthProperties.RegisterStoresRecoverablePii | src/services/auth.service.ts:63-101 | stored names, address and birth date decrypt to the submitted values; the phone decrypts to the dialling code followed by the digits |
| AuthProperties.RegisterConsumesCode | src/services/auth.service.ts:45 | every attempt leaves the store as `consumeOtp` left it |
| AuthProperties.RegisterOtpSingleUse | src/services/auth.service.ts:45-47 | replaying an accepted registration at any time fails `INVALID_OTP` |
| AuthProperties.LoginFailuresAlike | src/services/auth.service.ts:137-139 | the credentials fail exactly when the user is unknown or the password does not match; both give the same error and change nothing |
| AuthProperties.LoginSendsOneCode | src/services/auth.service.ts:141-144 | success writes no table, stores one six-digit code for the user's e-mail and mails it there |
| AuthProperties.LoginThenVerifySucceeds | src/services/auth.service.ts:126-190 | redeeming the mailed code within ten minutes opens a session |
| AuthProperties.LoginCodeExpires | src/services/auth.service.ts:126-164 | after ten minutes the mailed code fails `INVALID_OTP` |
| AuthProperties.VerifyUnknownUser | src/services/auth.service.ts:158-160 | an unknown identifier fails `USER_NOT_FOUND` and changes nothing |
| AuthProperties.VerifyRefusedCode | src/services/auth.service.ts:162-164 | a refused code fails `INVALID_OTP`, records no login and adds no refresh row |
| AuthProperties.VerifySuccess | src/services/auth.service.ts:166-189 | success stamps `lastLoginAt`, appends one refresh row for the user with the returned token, reports the user's role and spends the code |
| AuthProperties.ResetRequestAnswersAlike | src/services/auth.service.ts:192-231 | when the new token's hash is not already stored, known and unknown e-mails get the same answer |
| AuthProperties.ResetRequestUnknownEmail | src/services/auth.service.ts:200 | for an unknown e-mail nothing is written or sent |
| AuthProperties.ResetRequestKnownEmail | src/services/auth.service.ts:201-212 | exactly one reset row is added, holding the hash of the raw token, the user's id and a 20-minute expiry |
| AuthProperties.ResetRequestMailsLink | src/services/auth.service.ts:214-222 | one message goes to that e-mail, carrying the link with the raw token |
| AuthProperties.ResetRejectsUnknownOrExpired | src/services/auth.service.ts:234-244 | the reset fails exactly for an unknown or expired token, and then changes nothing |
| AuthProperties.ResetRevokesOwnerTokens | src/services/auth.service.ts:247-266 | the owner gets the new hash and loses every reset and refresh row; everything else is kept |
| AuthProperties.ResetPasswordMatches | src/services/auth.service.ts:247-255 | if bcrypt is sound, the new password matches the owner's stored hash |
| AuthProperties.ResetTokenSingleUse | src/services/auth.service.ts:233-267 | after a successful reset, the same token is refused |
| AuthProperties.RegisterPreservesValid | src/services/auth.service.ts:44-124 | registration keeps the integrity constraints |
| AuthProperties.VerifyPreservesValid | src/services/auth.service.ts:147-190 | login completion keeps the integrity constraints |
| AuthProperties.RequestResetPreservesValid | src/services/auth.service.ts:192-223 | a reset request keeps the integrity constraints, including unique hashes |
| AuthProperties.RevocationKeepsValid | src/services/auth.service.ts:250-266 | a password update plus removal of the user's token rows keeps the integrity constraints |
| AuthProperties.ResetSuccessTables | src/services/auth.service.ts:250-266 | the tables after a successful reset, as one value |
| AuthProperties.ResetPreservesValid | src/services/auth.service.ts:233-267 | a completed reset keeps the integrity constraints |

## Left out

- Mail delivery: `send` always succeeds and its message is appended to an outbox. A failing or slow mail service is outside the model.
- The timing floor of `requestPasswordReset` (src/services/auth.service.ts:225-230) is a wall-clock delay with no effect on state or result.
- Concurrency: requests are modelled one at a time. Atomicity of `consumeOtp` and isolation between transactions are not modelled. Each transaction is one state change: it is applied fully or not at all.
- Cryptography itself: AES, SHA-256, bcrypt and JWT signing are functions with no body. Only the laws named in the lemmas' preconditions are assumed of them. The key's length and hex format are not checked.
- Verification of JWTs and the src/utils/jwt.ts wrappers are not part of this model. Signing takes the payload and `now`.
- `toLowerCase` is modelled on ASCII letters only. Unicode case mapping of other letters is not captured.
- `z.email()` and the date refinement of `dateOfBirth` depend on library parsing and on the clock. They enter as boolean parameters of `RegisterPatientSchema` and, for `z.email()`, of `SendOtpSchema`.
- Database errors other than a unique-key clash or an enum refusal are not modelled:
  - lost connections;
  - `BigInt()` of a non-integer country id;
  - foreign-key failures.
- Database ids are not modelled as `BigInt`: user ids are the row numbers 1, 2, 3 … and users are never deleted.
- The Prisma `GENDER` enum is not enforced at `patient.create`: the gender string is stored as given.
- The countries service, the controllers, the routes and the HTTP cookie handling are not part of this model.
- The rollback of the `Object.prototype` blood-type case is modelled as restoring the user table. The auto-increment counter that Prisma would advance is not modelled.
- Refresh-token uniqueness: the Prisma schema is not part of this model, so whether `refreshToken.token` carries a unique constraint is unknown. The model assumes it does not and appends every refresh row. Two sessions issued to one user within the same second of the JWT clock carry identical tokens (src/utils/jwt.ts:15-20 sets no `jti`). If the column were unique, the second `saveRefreshToken` would throw, and the model does not capture that.
- Tables.FindUserByIdentifier: the model picks the lowest-index matching user. Prisma's `findFirst` without `orderBy` promises no order. Only the contract's weaker "a matching user" reflects the source.
- One clock per flow: every clock read within a flow uses the same `now`. In the source these are separate reads:
  - `registerPatient` reads `Date.now()` in `consumeOtp` (src/utils/otp.ts:38) and again, after bcrypt, in `saveRefreshToken` (src/services/auth.service.ts:274);
  - `verifyLoginOtp` reads it in `consumeOtp`, for `lastLoginAt` (src/services/auth.service.ts:169) and in `saveRefreshToken`;
  - jsonwebtoken reads its own clock.

  The exact equalities `expiresAt == now + 7 days` (`AuthProperties.RegisterSuccess`, `AuthProperties.VerifySuccess`) and `lastLoginAt == now` hold for this single instant. In the source, the later reads can be a few milliseconds later.
- Chars.Lower: handles only the ASCII letters, for the reason given above.
- Validation.ValidPassword: its ensures gives at least 4 characters, not 8. The schema's minimum of 8 counts UTF-16 code units, and one character may take two. The exact rule is in the predicate's body.
- Validation.ValidName: its ensures gives at least 1 character, not 2, for the same reason.

=== FILE: auth_properties.dfy ===
/**
 * What the credential flows promise, proved about the functions of module AuthRules
 * (and so, through the methods' postconditions, about module AuthService).
 */
module AuthProperties {
  import opened Wrappers
  import opened Chars
  import opened Primitives
  import opened Encryption
  import opened Otp
  import opened Validation
  import opened Tables
  import opened Mail
  import opened AuthRules

  // ---------------------------------------------------------------- helpers of the service

  /** `BigInt(id.toString())` gives the id back, so a refresh row belongs to the user it was issued for. */
  lemma {:induction false} DecimalRoundTrip(n: nat)
    ensures DecimalValue(DecimalString(n)) == n
    decreases n
  {
    var s := DecimalString(n);
    if n < 10 {
      assert s[..|s| - 1] == [];
    } else {
      DecimalRoundTrip(n / 10);
      assert s[..|s| - 1] == DecimalString(n / 10);
    }
  }

  /** Distinct ids are written as distinct strings. */
  lemma DecimalStringInjective(m: nat, n: nat)
    ensures DecimalString(m) == DecimalString(n) <==> m == n
  {
    if DecimalString(m) == DecimalString(n) {
      DecimalRoundTrip(m);
      DecimalRoundTrip(n);
    }
  }

  /** `BLOOD_TYPE_MAP` and its inverse: each enum value has exactly one code. */
  lemma BloodTypeCodesRoundTrip(b: BloodType, code: string)
    ensures LookupBloodType(BloodTypeCode(b)) == Own(b)
    ensures LookupBloodType(code) == Own(b) <==> code == BloodTypeCode(b)
  {
  }

  /** A code the request schema accepts is one of the map's own keys, so it never hits INVALID_BLOOD_TYPE. */
  lemma ValidatedBloodTypeIsMapped(code: string)
    ensures ValidBloodType(code) <==> LookupBloodType(code).Own?
  {
  }

  /** `Object.prototype` names are truthy lookups: they pass the service's own check. */
  lemma PrototypeKeyPassesMapCheck()
    ensures LookupBloodType("constructor") == Inherited
    ensures LookupBloodType("toString") == Inherited
    ensures !ValidBloodType("constructor")
  {
  }

  /**
   * The phone normalisation keeps only digits: stripping the number beforehand, or padding
   * it before or after with anything that holds no digit, stores the same phone.
   */
  lemma FullPhoneNormalises(phoneCode: string, phoneNumber: string, padding: string)
    requires forall i :: 0 <= i < |padding| ==> !IsDigit(padding[i])
    ensures FullPhone(phoneCode, phoneNumber) == FullPhone(phoneCode, DigitsOnly(phoneNumber))
    ensures FullPhone(phoneCode, phoneNumber + padding) == FullPhone(phoneCode, phoneNumber)
    ensures FullPhone(phoneCode, padding + phoneNumber) == FullPhone(phoneCode, phoneNumber)
  {
    DigitsOnlyOfDigits(DigitsOnly(phoneNumber));
    DigitsOnlyOfNonDigits(padding);
    DigitsOnlyAppend(phoneNumber, padding);
    DigitsOnlyAppend(padding, phoneNumber);
    assert DigitsOnly(phoneNumber) + [] == DigitsOnly(phoneNumber);
    assert [] + DigitsOnly(phoneNumber) == DigitsOnly(phoneNumber);
  }

  /** A code from `generateOtp` is one the `otp` field of the request schema accepts. */
  lemma GeneratedOtpIsValid(draws: seq<real>)
    requires |draws| == OTP_LENGTH && AreRandoms(draws)
    ensures ValidOtp(DigitsOf(draws))
  {
    ValidOtpIffSixDigits(DigitsOf(draws));
  }

  // ---------------------------------------------------------------- registerPatient

  /** The code is checked first: when it is refused, no table is consulted and none is written. */
  lemma RegisterChecksOtpFirst(w: World, env: Env, input: RegisterPatientInput, now: int, coins: RegisterCoins, db: Tables)
    requires !Accepts(w.otps, input.email, input.otp, now)
    ensures Register(w.(db := db), env, input, now, coins)
         == Step(Err(InvalidOtp), w.(db := db, otps := AfterConsume(w.otps, input.email, input.otp, now)))
  {
  }

  /** A missing PATIENT role is reported whatever the country table holds. */
  lemma RegisterChecksRoleBeforeCountry(w: World, env: Env, input: RegisterPatientInput, now: int, coins: RegisterCoins,
                                        countries: seq<Country>)
    requires Accepts(w.otps, input.email, input.otp, now)
    requires FindRoleByName(w.db.roles, PATIENT_ROLE).None?
    ensures Register(w.(db := w.db.(countries := countries)), env, input, now, coins)
         == Step(Err(RoleConfigurationMissing),
                 w.(db := w.db.(countries := countries), otps := AfterConsume(w.otps, input.email, input.otp, now)))
  {
  }

  /**
   * A registration that fails writes no row and sends no mail; the only trace it leaves
   * is in the OTP store, where an accepted code stays spent.
   */
  lemma RegisterFailureWritesNothing(w: World, env: Env, input: RegisterPatientInput, now: int, coins: RegisterCoins)
    requires Register(w, env, input, now, coins).result.Err?
    ensures Register(w, env, input, now, coins).world == w.(otps := AfterConsume(w.otps, input.email, input.otp, now))
  {
  }

  /** A code outside the eight the map holds fails INVALID_BLOOD_TYPE once the lookups succeed. */
  lemma RegisterRejectsUnknownBloodType(w: World, env: Env, input: RegisterPatientInput, now: int, coins: RegisterCoins)
    requires Accepts(w.otps, input.email, input.otp, now)
    requires FindRoleByName(w.db.roles, PATIENT_ROLE).Some?
    requires FindCountry(w.db.countries, input.countryId).Some?
    requires input.bloodType !in BLOOD_TYPES && input.bloodType !in OBJECT_PROTOTYPE_KEYS
    ensures Register(w, env, input, now, coins).result == Err(InvalidBloodType)
  {
  }

  /** The two blood-type failures come from a missing map entry and from an inherited one. */
  lemma RegisterBloodTypeFailures(w: World, env: Env, input: RegisterPatientInput, now: int, coins: RegisterCoins)
    ensures Register(w, env, input, now, coins).result == Err(InvalidBloodType) ==> LookupBloodType(input.bloodType).Missing?
    ensures Register(w, env, input, now, coins).result == Err(InvalidEnumValue) ==> LookupBloodType(input.bloodType).Inherited?
  {
  }

  /** Input the request schema accepted never fails INVALID_BLOOD_TYPE or at the enum column. */
  lemma ValidatedRegistrationBloodTypeMapped(w: World, env: Env, input: RegisterPatientInput, now: int, coins: RegisterCoins,
                                             emailFormatOk: bool, dateOfBirthInPast: bool)
    requires RegisterPatientSchema(input, emailFormatOk, dateOfBirthInPast)
    ensures Register(w, env, input, now, coins).result != Err(InvalidBloodType)
    ensures Register(w, env, input, now, coins).result != Err(InvalidEnumValue)
  {
    assert ValidBloodType(input.bloodType);
    ValidatedBloodTypeIsMapped(input.bloodType);
    RegisterBloodTypeFailures(w, env, input, now, coins);
  }

  /**
   * A successful registration adds exactly one user (the next id, with the submitted
   * username and e-mail and the PATIENT role), one patient row for that user with the
   * mapped blood type, and one refresh row for that user holding the returned refresh token
   * and expiring in seven days; it spends the code and touches nothing else.
   */
  lemma RegisterSuccess(w: World, env: Env, input: RegisterPatientInput, now: int, coins: RegisterCoins)
    requires Register(w, env, input, now, coins).result.Ok?
    ensures var r := Register(w, env, input, now, coins);
      && |r.world.db.users| == |w.db.users| + 1
      && |r.world.db.patients| == |w.db.patients| + 1
      && |r.world.db.refreshTokens| == |w.db.refreshTokens| + 1
    ensures var r := Register(w, env, input, now, coins);
      var id := |w.db.users| + 1;
      var user := r.world.db.users[id - 1];
      && r.world.db == w.db.(users := w.db.users + [user],
                            patients := w.db.patients + [r.world.db.patients[|w.db.patients|]],
                            refreshTokens := w.db.refreshTokens + [RefreshToken(r.result.value.refreshToken, id, now + REFRESH_TOKEN_TTL_MS)])
      && user.id == id && user.username == input.username && user.email == input.email
      && Some(Role(user.roleId, PATIENT_ROLE)) == FindRoleByName(w.db.roles, PATIENT_ROLE)
      && user.createdAt == now && user.lastLoginAt == None
      && r.world.db.patients[|w.db.patients|].userId == id
      && BloodTypeCode(r.world.db.patients[|w.db.patients|].bloodType) == input.bloodType
      && r.result.value.authResponse.userId == DecimalString(id)
      && r.result.value.authResponse.role == PATIENT_ROLE
      && r.world.otps == w.otps - {Key(input.email)}
      && r.world.outbox == w.outbox
  {
    DecimalRoundTrip(|w.db.users| + 1);
  }

  /** The rows a successful registration appends are the ones built from the request. */
  lemma RegisterAppendsBuiltRows(w: World, env: Env, input: RegisterPatientInput, now: int, coins: RegisterCoins)
    requires Register(w, env, input, now, coins).result.Ok?
    ensures FindRoleByName(w.db.roles, PATIENT_ROLE).Some? && FindCountry(w.db.countries, input.countryId).Some?
    ensures LookupBloodType(input.bloodType).Own?
    ensures var r := Register(w, env, input, now, coins);
      var role := FindRoleByName(w.db.roles, PATIENT_ROLE).value;
      var country := FindCountry(w.db.countries, input.countryId).value;
      var user := NewUser(w.db, env, input, role, country, now, coins);
      var session := IssueSession(env, TokenPayload(DecimalString(user.id), role.role), now);
      && !Clashes(w.db.users, user)
      && r.result == Ok(session)
      && r.world.db == w.db.(users := w.db.users + [user],
                            patients := w.db.patients + [NewPatient(env, input, user.id, LookupBloodType(input.bloodType).bloodType, coins)],
                            refreshTokens := w.db.refreshTokens + [RefreshToken(session.refreshToken, user.id, now + REFRESH_TOKEN_TTL_MS)])
  {
    DecimalRoundTrip(|w.db.users| + 1);
  }

  /**
   * What a registration stores decrypts to what was submitted: the phone to the dialling
   * code followed by the digits of the typed number, the other fields to themselves.
   */
  lemma RegisterStoresRecoverablePii(w: World, env: Env, input: RegisterPatientInput, now: int, coins: RegisterCoins)
    requires Utf8RoundTrip(env.p) && Utf8EmptyExactly(env.p)
    requires GcmRoundTrip(env.p) && GcmLengthPreserving(env.p) && CbcRoundTrip(env.p)
    requires input.firstName != [] && input.lastName != [] && input.address != [] && input.dateOfBirth != []
    requires Register(w, env, input, now, coins).result.Ok?
    ensures var r := Register(w, env, input, now, coins);
      && |r.world.db.users| == |w.db.users| + 1
      && |r.world.db.patients| == |w.db.patients| + 1
    ensures var r := Register(w, env, input, now, coins);
      var user := r.world.db.users[|w.db.users|];
      var patient := r.world.db.patients[|w.db.patients|];
      var country := FindCountry(w.db.countries, input.countryId);
      && country.Some?
      && DecryptDeterministic(env.p, env.encryptionKey, user.phoneNumber)
         == Ok(FullPhone(country.value.phoneCode, input.phoneNumber))
      && Decrypt(env.p, env.encryptionKey, user.firstName) == Ok(input.firstName)
      && Decrypt(env.p, env.encryptionKey, user.lastName) == Ok(input.lastName)
      && Decrypt(env.p, env.encryptionKey, patient.address) == Ok(input.address)
      && Decrypt(env.p, env.encryptionKey, patient.dateOfBirth) == Ok(input.dateOfBirth)
  {
    RegisterAppendsBuiltRows(w, env, input, now, coins);
    var role := FindRoleByName(w.db.roles, PATIENT_ROLE).value;
    var country := FindCountry(w.db.countries, input.countryId).value;
    var user := NewUser(w.db, env, input, role, country, now, coins);
    var patient := NewPatient(env, input, user.id, LookupBloodType(input.bloodType).bloodType, coins);
    DecryptEncryptDeterministic(env.p, env.encryptionKey, FullPhone(country.phoneCode, input.phoneNumber));
    DecryptEncrypt(env.p, env.encryptionKey, coins.ivFirstName, input.firstName);
    DecryptEncrypt(env.p, env.encryptionKey, coins.ivLastName, input.lastName);
    DecryptEncrypt(env.p, env.encryptionKey, coins.ivAddress, input.address);
    DecryptEncrypt(env.p, env.encryptionKey, coins.ivDateOfBirth, input.dateOfBirth);
    var r := Register(w, env, input, now, coins);
    assert r.world.db.users[|w.db.users|] == user;
    assert r.world.db.patients[|w.db.patients|] == patient;
  }

  /** Every registration attempt leaves the OTP store as `consumeOtp` left it. */
  lemma RegisterConsumesCode(w: World, env: Env, input: RegisterPatientInput, now: int, coins: RegisterCoins)
    ensures Register(w, env, input, now, coins).world.otps == AfterConsume(w.otps, input.email, input.otp, now)
  {
  }

  /** The code a registration accepted is spent: replaying the same request is refused. */
  lemma RegisterOtpSingleUse(w: World, env: Env, input: RegisterPatientInput, now: int, coins: RegisterCoins,
                             later: int, coins': RegisterCoins)
    requires Accepts(w.otps, input.email, input.otp, now)
    ensures Register(Register(w, env, input, now, coins).world, env, input, later, coins').result == Err(InvalidOtp)
  {
    var w' := Register(w, env, input, now, coins).world;
    RegisterConsumesCode(w, env, input, now, coins);
    ConsumeAtMostOnce(w.otps, input.email, input.otp, now, input.otp, later);
    RegisterChecksOtpFirst(w', env, input, later, coins', w'.db);
  }

  // ---------------------------------------------------------------- login

  /** An unknown identifier and a wrong password give the same error and leave everything as it was. */
  lemma LoginFailuresAlike(w: World, env: Env, identifier: string, password: string, draws: seq<real>, now: int)
    requires |draws| == OTP_LENGTH && AreRandoms(draws)
    ensures var found := FindUserByIdentifier(w.db.users, identifier);
      found.None? || !env.p.bcryptCompare(password, w.db.users[found.value].passwordHash)
      <==> AuthRules.Login(w, env, identifier, password, draws, now) == Step(Err(InvalidCredentials), w)
  {
  }

  /**
   * Correct credentials give only the OTP_SENT acknowledgment: no token row is written, one
   * code is stored for the user's e-mail and one message carrying it is sent there.
   */
  lemma LoginSendsOneCode(w: World, env: Env, identifier: string, password: string, draws: seq<real>, now: int)
    requires |draws| == OTP_LENGTH && AreRandoms(draws)
    requires AuthRules.Login(w, env, identifier, password, draws, now).result.Ok?
    ensures FindUserByIdentifier(w.db.users, identifier).Some?
    ensures var r := AuthRules.Login(w, env, identifier, password, draws, now);
      var user := w.db.users[FindUserByIdentifier(w.db.users, identifier).value];
      && r.result == Ok(OTP_SENT)
      && r.world.db == w.db
      && r.world.otps == w.otps[Key(user.email) := OtpEntry(DigitsOf(draws), now + OTP_TTL_MS)]
      && r.world.outbox == w.outbox + [OtpMessage(user.email, DigitsOf(draws))]
      && ValidOtp(DigitsOf(draws))
  {
    GeneratedOtpIsValid(draws);
  }

  /** Logging in and then redeeming the mailed code within ten minutes opens a session. */
  lemma LoginThenVerifySucceeds(w: World, env: Env, identifier: string, password: string, draws: seq<real>, now: int, later: int)
    requires Valid(w.db)
    requires |draws| == OTP_LENGTH && AreRandoms(draws)
    requires AuthRules.Login(w, env, identifier, password, draws, now).result.Ok?
    requires later <= now + OTP_TTL_MS
    ensures AuthRules.VerifyLoginOtp(AuthRules.Login(w, env, identifier, password, draws, now).world, env, identifier,
                                     DigitsOf(draws), later).result.Ok?
  {
    var i := FindUserByIdentifier(w.db.users, identifier).value;
    var email := w.db.users[i].email;
    StoreThenAccept(w.otps, email, DigitsOf(draws), now, email, DigitsOf(draws), later);
  }

  /** Once the code is more than ten minutes old it no longer opens a session. */
  lemma LoginCodeExpires(w: World, env: Env, identifier: string, password: string, draws: seq<real>, now: int,
                         otp: string, later: int)
    requires Valid(w.db)
    requires |draws| == OTP_LENGTH && AreRandoms(draws)
    requires AuthRules.Login(w, env, identifier, password, draws, now).result.Ok?
    requires later > now + OTP_TTL_MS
    ensures AuthRules.VerifyLoginOtp(AuthRules.Login(w, env, identifier, password, draws, now).world, env, identifier,
                                     otp, later).result == Err(InvalidOtp)
  {
    var i := FindUserByIdentifier(w.db.users, identifier).value;
    var email := w.db.users[i].email;
    StoreThenAccept(w.otps, email, DigitsOf(draws), now, email, otp, later);
  }

  // ---------------------------------------------------------------- verifyLoginOtp

  /** An unknown identifier fails USER_NOT_FOUND and changes nothing. */
  lemma VerifyUnknownUser(w: World, env: Env, identifier: string, otp: string, now: int)
    requires Valid(w.db)
    requires FindUserByIdentifier(w.db.users, identifier).None?
    ensures AuthRules.VerifyLoginOtp(w, env, identifier, otp, now) == Step(Err(UserNotFound), w)
  {
  }

  /** A refused code fails INVALID_OTP: no table changes, so no login time and no refresh row. */
  lemma VerifyRefusedCode(w: World, env: Env, identifier: string, otp: string, now: int)
    requires Valid(w.db)
    requires FindUserByIdentifier(w.db.users, identifier).Some?
    requires !Accepts(w.otps, w.db.users[FindUserByIdentifier(w.db.users, identifier).value].email, otp, now)
    ensures var r := AuthRules.VerifyLoginOtp(w, env, identifier, otp, now);
      r.result == Err(InvalidOtp) && r.world.db == w.db && r.world.outbox == w.outbox
  {
  }

  /**
   * An accepted code stamps the user's last login, adds exactly one refresh row for that
   * user holding the returned token, and spends the code.
   */
  lemma VerifySuccess(w: World, env: Env, identifier: string, otp: string, now: int)
    requires Valid(w.db)
    requires AuthRules.VerifyLoginOtp(w, env, identifier, otp, now).result.Ok?
    ensures FindUserByIdentifier(w.db.users, identifier).Some?
    ensures var r := AuthRules.VerifyLoginOtp(w, env, identifier, otp, now);
      var i := FindUserByIdentifier(w.db.users, identifier).value;
      var user := w.db.users[i];
      && r.world.db == w.db.(users := w.db.users[i := user.(lastLoginAt := Some(now))],
                            refreshTokens := w.db.refreshTokens + [RefreshToken(r.result.value.refreshToken, user.id, now + REFRESH_TOKEN_TTL_MS)])
      && r.result.value.authResponse.userId == DecimalString(user.id)
      && Some(Role(user.roleId, r.result.value.authResponse.role)) == FindRoleById(w.db.roles, user.roleId)
      && r.world.otps == w.otps - {Key(user.email)}
      && r.world.outbox == w.outbox
  {
    var i := FindUserByIdentifier(w.db.users, identifier).value;
    DecimalRoundTrip(w.db.users[i].id);
  }

  // ---------------------------------------------------------------- requestPasswordReset

  /** Whether or not the e-mail belongs to a user, a request that writes its row answers the same. */
  lemma ResetRequestAnswersAlike(w: World, env: Env, email: string, secret: ResetSecret, now: int)
    requires FindResetToken(w.db.resetTokens, HashToken(env.p, Hex(secret))).None?
    ensures AuthRules.RequestPasswordReset(w, env, email, secret, now).result == Ok(())
  {
  }

  /** For an unknown e-mail nothing is written and nothing is sent. */
  lemma ResetRequestUnknownEmail(w: World, env: Env, email: string, secret: ResetSecret, now: int)
    requires FindUserByEmail(w.db.users, email).None?
    ensures AuthRules.RequestPasswordReset(w, env, email, secret, now) == Step(Ok(()), w)
  {
  }

  /**
   * For a known e-mail exactly one reset row is added, holding the hash of the token, the
   * user's id and an expiry twenty minutes ahead; earlier rows stay in place.
   */
  lemma ResetRequestKnownEmail(w: World, env: Env, email: string, secret: ResetSecret, now: int)
    requires FindUserByEmail(w.db.users, email).Some?
    requires AuthRules.RequestPasswordReset(w, env, email, secret, now).result.Ok?
    ensures var r := AuthRules.RequestPasswordReset(w, env, email, secret, now);
      var user := w.db.users[FindUserByEmail(w.db.users, email).value];
      && user.email == email
      && r.world.db == w.db.(resetTokens := w.db.resetTokens + [ResetToken(HashToken(env.p, Hex(secret)), user.id, now + RESET_TOKEN_TTL_MS)])
      && r.world.otps == w.otps
  {
    assert FindResetToken(w.db.resetTokens, HashToken(env.p, Hex(secret))).None?;
  }

  /** For a known e-mail one message goes to that address, carrying the link with the raw (unhashed) token. */
  lemma ResetRequestMailsLink(w: World, env: Env, email: string, secret: ResetSecret, now: int)
    requires FindUserByEmail(w.db.users, email).Some?
    requires AuthRules.RequestPasswordReset(w, env, email, secret, now).result.Ok?
    ensures AuthRules.RequestPasswordReset(w, env, email, secret, now).world.outbox
         == w.outbox + [ResetMessage(email, ResetUrl(env.frontendUrl, Hex(secret)))]
  {
    assert FindResetToken(w.db.resetTokens, HashToken(env.p, Hex(secret))).None?;
  }

  // ---------------------------------------------------------------- resetPassword

  /** An unknown or expired token fails INVALID_RESET_TOKEN and changes nothing. */
  lemma ResetRejectsUnknownOrExpired(w: World, env: Env, token: string, password: string, salt: Bytes, now: int)
    requires UsersNumbered(w.db.users) && ResetOwnersExist(w.db.resetTokens, |w.db.users|)
    ensures var found := FindResetToken(w.db.resetTokens, HashToken(env.p, token));
      found.None? || w.db.resetTokens[found.value].expiresAt < now
      <==> AuthRules.ResetPassword(w, env, token, password, salt, now) == Step(Err(InvalidResetToken), w)
  {
  }

  /**
   * A reset sets the owner's password hash and removes every reset row and every refresh
   * row of the owner, while every other user's rows, and every other user, are kept.
   */
  lemma ResetRevokesOwnerTokens(w: World, env: Env, token: string, password: string, salt: Bytes, now: int)
    requires UsersNumbered(w.db.users) && ResetOwnersExist(w.db.resetTokens, |w.db.users|)
    requires AuthRules.ResetPassword(w, env, token, password, salt, now).result.Ok?
    ensures FindResetToken(w.db.resetTokens, HashToken(env.p, token)).Some?
    ensures var r := AuthRules.ResetPassword(w, env, token, password, salt, now);
      var owner := w.db.resetTokens[FindResetToken(w.db.resetTokens, HashToken(env.p, token)).value].userId;
      && |r.world.db.users| == |w.db.users|
      && r.world.db.users[owner - 1].passwordHash == env.p.bcryptHash(password, BCRYPT_ROUNDS, salt)
      && (forall i :: 0 <= i < |w.db.users| && i != owner - 1 ==> r.world.db.users[i] == w.db.users[i])
      && (forall t :: t in r.world.db.resetTokens <==> t in w.db.resetTokens && t.userId != owner)
      && (forall t :: t in r.world.db.refreshTokens <==> t in w.db.refreshTokens && t.userId != owner)
      && r.world.db.patients == w.db.patients
      && r.world.otps == w.otps && r.world.outbox == w.outbox
  {
  }

  /** Under bcrypt's soundness, the new password is the one that now matches the owner's hash. */
  lemma ResetPasswordMatches(w: World, env: Env, token: string, password: string, salt: Bytes, now: int)
    requires BcryptSound(env.p)
    requires UsersNumbered(w.db.users) && ResetOwnersExist(w.db.resetTokens, |w.db.users|)
    requires AuthRules.ResetPassword(w, env, token, password, salt, now).result.Ok?
    ensures FindResetToken(w.db.resetTokens, HashToken(env.p, token)).Some?
    ensures var r := AuthRules.ResetPassword(w, env, token, password, salt, now);
      var owner := w.db.resetTokens[FindResetToken(w.db.resetTokens, HashToken(env.p, token)).value].userId;
      env.p.bcryptCompare(password, r.world.db.users[owner - 1].passwordHash)
  {
  }

  /** A reset token works once: after a successful reset the same token is refused. */
  lemma ResetTokenSingleUse(w: World, env: Env, token: string, password: string, salt: Bytes, now: int,
                            password': string, salt': Bytes, later: int)
    requires Valid(w.db)
    requires AuthRules.ResetPassword(w, env, token, password, salt, now).result.Ok?
    ensures var t := AuthRules.ResetPassword(w, env, token, password, salt, now).world.db;
      UsersNumbered(t.users) && ResetOwnersExist(t.resetTokens, |t.users|)
    ensures AuthRules.ResetPassword(AuthRules.ResetPassword(w, env, token, password, salt, now).world, env, token, password', salt', later).result
         == Err(InvalidResetToken)
  {
    var h := HashToken(env.p, token);
    var k := FindResetToken(w.db.resetTokens, h).value;
    var owner := w.db.resetTokens[k].userId;
    var kept := AuthRules.ResetPassword(w, env, token, password, salt, now).world.db.resetTokens;
    forall t | t in kept
      ensures t.hashedToken != h
    {
      assert t in w.db.resetTokens && t.userId != owner;
    }
  }

  // ---------------------------------------------------------------- integrity

  /** A registration keeps the database's integrity constraints. */
  lemma RegisterPreservesValid(w: World, env: Env, input: RegisterPatientInput, now: int, coins: RegisterCoins)
    requires Valid(w.db)
    ensures Valid(Register(w, env, input, now, coins).world.db)
  {
    var r := Register(w, env, input, now, coins);
    if r.result.Ok? {
      RegisterAppendsBuiltRows(w, env, input, now, coins);
      var role := FindRoleByName(w.db.roles, PATIENT_ROLE).value;
      var country := FindCountry(w.db.countries, input.countryId).value;
      var user := NewUser(w.db, env, input, role, country, now, coins);
      var session := IssueSession(env, TokenPayload(DecimalString(user.id), role.role), now);
      var k :| 0 <= k < |w.db.roles| && w.db.roles[k] == role;
      var n := |w.db.users|;
      InsertUserKeepsConstraints(w.db.users, w.db.roles, w.db.countries, user);
      InsertPatientKeepsConstraints(w.db.patients, n, NewPatient(env, input, user.id, LookupBloodType(input.bloodType).bloodType, coins));
      InsertRefreshKeepsOwners(w.db.refreshTokens, n, n + 1, RefreshToken(session.refreshToken, user.id, now + REFRESH_TOKEN_TTL_MS));
      assert ResetOwnersExist(w.db.resetTokens, n + 1);
    }
  }

  /** Redeeming a login code keeps the database's integrity constraints. */
  lemma VerifyPreservesValid(w: World, env: Env, identifier: string, otp: string, now: int)
    requires Valid(w.db)
    ensures Valid(AuthRules.VerifyLoginOtp(w, env, identifier, otp, now).world.db)
  {
    var r := AuthRules.VerifyLoginOtp(w, env, identifier, otp, now);
    if r.result.Ok? {
      VerifySuccess(w, env, identifier, otp, now);
      var i := FindUserByIdentifier(w.db.users, identifier).value;
      var user := w.db.users[i];
      UpdateUserKeepsConstraints(w.db.users, w.db.roles, w.db.countries, i, user.(lastLoginAt := Some(now)));
      InsertRefreshKeepsOwners(w.db.refreshTokens, |w.db.users|, |w.db.users|,
                               RefreshToken(r.result.value.refreshToken, user.id, now + REFRESH_TOKEN_TTL_MS));
    }
  }

  /** A reset request keeps the database's integrity constraints; in particular hashes stay unique. */
  lemma RequestResetPreservesValid(w: World, env: Env, email: string, secret: ResetSecret, now: int)
    requires Valid(w.db)
    ensures Valid(AuthRules.RequestPasswordReset(w, env, email, secret, now).world.db)
  {
    var r := AuthRules.RequestPasswordReset(w, env, email, secret, now);
    if r.world.db != w.db {
      var i := FindUserByEmail(w.db.users, email).value;
      InsertResetKeepsConstraints(w.db.resetTokens, |w.db.users|,
                                  ResetToken(HashToken(env.p, Hex(secret)), w.db.users[i].id, now + RESET_TOKEN_TTL_MS));
    }
  }

  /** Changing one user's password hash and deleting all of that user's token rows keeps the constraints. */
  lemma RevocationKeepsValid(t: Tables, owner: nat, passwordHash: string)
    requires Valid(t) && 1 <= owner <= |t.users|
    ensures Valid(t.(users := t.users[owner - 1 := t.users[owner - 1].(passwordHash := passwordHash)],
                     resetTokens := ResetTokensNotOwnedBy(t.resetTokens, owner),
                     refreshTokens := RefreshTokensNotOwnedBy(t.refreshTokens, owner)))
  {
    UpdateUserKeepsConstraints(t.users, t.roles, t.countries, owner - 1, t.users[owner - 1].(passwordHash := passwordHash));
    FilterRefreshKeepsOwners(t.refreshTokens, (r: RefreshToken) => r.userId != owner, |t.users|);
    FilterResetKeepsConstraints(t.resetTokens, (r: ResetToken) => r.userId != owner, |t.users|);
  }

  /** The tables after a successful reset, as one value. */
  lemma ResetSuccessTables(w: World, env: Env, token: string, password: string, salt: Bytes, now: int)
    requires UsersNumbered(w.db.users) && ResetOwnersExist(w.db.resetTokens, |w.db.users|)
    requires AuthRules.ResetPassword(w, env, token, password, salt, now).result.Ok?
    ensures FindResetToken(w.db.resetTokens, HashToken(env.p, token)).Some?
    ensures var owner := w.db.resetTokens[FindResetToken(w.db.resetTokens, HashToken(env.p, token)).value].userId;
      && 1 <= owner <= |w.db.users|
      && AuthRules.ResetPassword(w, env, token, password, salt, now).world.db
         == w.db.(users := w.db.users[owner - 1 := w.db.users[owner - 1].(passwordHash := env.p.bcryptHash(password, BCRYPT_ROUNDS, salt))],
                  resetTokens := ResetTokensNotOwnedBy(w.db.resetTokens, owner),
                  refreshTokens := RefreshTokensNotOwnedBy(w.db.refreshTokens, owner))
  {
  }

  /** A completed reset keeps the database's integrity constraints. */
  lemma ResetPreservesValid(w: World, env: Env, token: string, password: string, salt: Bytes, now: int)
    requires Valid(w.db)
    ensures Valid(AuthRules.ResetPassword(w, env, token, password, salt, now).world.db)
  {
    if AuthRules.ResetPassword(w, env, token, password, salt, now).result.Ok? {
      ResetSuccessTables(w, env, token, password, salt, now);
      var owner := w.db.resetTokens[FindResetToken(w.db.resetTokens, HashToken(env.p, token)).value].userId;
      RevocationKeepsValid(w.db, owner, env.p.bcryptHash(password, BCRYPT_ROUNDS, salt));
    }
  }
}

=== FILE: auth_rules.dfy ===
/**
 * The credential service (src/services/auth.service.ts) as functions: its pure helpers
 * (the blood-type map, phone normalisation, the id <-> string conversion of the token
 * payload) and, for each flow, the outcome and the new state it produces from the old.
 * The methods of module AuthService perform the flows step by step and are proved to
 * produce exactly these outcomes; the lemmas of module AuthProperties are about them.
 */
module AuthRules {
  import opened Wrappers
  import opened Chars
  import opened Primitives
  import opened Encryption
  import opened Otp
  import opened Validation
  import opened Tables
  import opened Mail

  const BCRYPT_ROUNDS: int := 10
  const PATIENT_ROLE: string := "PATIENT"
  /** 20 minutes in milliseconds. */
  const RESET_TOKEN_TTL_MS: int := 1200000
  /** 7 days in milliseconds, matching the refresh token's own lifetime. */
  const REFRESH_TOKEN_TTL_MS: int := 604800000
  const RESET_TOKEN_BYTES: nat := 32
  const OTP_SENT: string := "OTP_SENT"

  // ---------------------------------------------------------------- blood types

  /**
   * What `BLOOD_TYPE_MAP[code]` yields: one of the map's own eight entries, a property
   * every object literal inherits from `Object.prototype` (a truthy function or object,
   * so it passes the `!bloodTypePrisma` check), or `undefined`.
   */
  datatype BloodTypeLookup = Own(bloodType: BloodType) | Inherited | Missing

  const OBJECT_PROTOTYPE_KEYS: set<string> := {
    "constructor", "hasOwnProperty", "isPrototypeOf", "propertyIsEnumerable", "toLocaleString",
    "toString", "valueOf", "__proto__", "__defineGetter__", "__defineSetter__",
    "__lookupGetter__", "__lookupSetter__"
  }

  /** The key under which `BLOOD_TYPE_MAP` holds each enum value. */
  function BloodTypeCode(b: BloodType): (code: string)
    ensures code in BLOOD_TYPES
  {
    match b
    case A_pos => "A+"
    case A_neg => "A-"
    case B_pos => "B+"
    case B_neg => "B-"
    case O_pos => "O+"
    case O_neg => "O-"
    case AB_pos => "AB+"
    case AB_neg => "AB-"
  }

  /** `BLOOD_TYPE_MAP[code]`; its own keys are exactly the codes the request schema admits. */
  function LookupBloodType(code: string): (r: BloodTypeLookup)
    ensures r.Own? <==> code in BLOOD_TYPES
    ensures r.Own? ==> BloodTypeCode(r.bloodType) == code
    ensures r.Inherited? <==> code in OBJECT_PROTOTYPE_KEYS
  {
    if code == "A+" then Own(A_pos)
    else if code == "A-" then Own(A_neg)
    else if code == "B+" then Own(B_pos)
    else if code == "B-" then Own(B_neg)
    else if code == "O+" then Own(O_pos)
    else if code == "O-" then Own(O_neg)
    else if code == "AB+" then Own(AB_pos)
    else if code == "AB-" then Own(AB_neg)
    else if code in OBJECT_PROTOTYPE_KEYS then Inherited
    else Missing
  }

  // ---------------------------------------------------------------- phone numbers

  /** `country.phoneCode + input.phoneNumber.replace(/\D/g, '')`. */
  function FullPhone(phoneCode: string, phoneNumber: string): (full: string)
    ensures |full| >= |phoneCode| && full[..|phoneCode|] == phoneCode
    ensures AllDigits(full[|phoneCode|..]) && |full| - |phoneCode| <= |phoneNumber|
  {
    phoneCode + DigitsOnly(phoneNumber)
  }

  // ---------------------------------------------------------------- user ids in token payloads

  /** `id.toString()` for a non-negative `BigInt`: decimal, no leading zero. */
  function DecimalString(n: nat): (s: string)
    ensures |s| >= 1 && AllDigits(s)
    ensures |s| > 1 ==> s[0] != '0'
    decreases n
  {
    if n < 10 then [DigitChar(n)] else DecimalString(n / 10) + [DigitChar(n % 10)]
  }

  /** `BigInt(s)` for a string of decimal digits (the empty string gives 0). */
  function DecimalValue(s: string): nat
    requires AllDigits(s)
  {
    if s == [] then 0 else 10 * DecimalValue(s[..|s| - 1]) + DigitValue(s[|s| - 1])
  }

  // ---------------------------------------------------------------- flow state

  datatype AuthError =
    /** 'INVALID_OTP' */
    | InvalidOtp
    /** the plain Error 'Patient role configuration missing' */
    | RoleConfigurationMissing
    /** 'COUNTRY_NOT_FOUND' */
    | CountryNotFound
    /** 'INVALID_BLOOD_TYPE' */
    | InvalidBloodType
    /** a create that breaks a unique constraint (Prisma P2002) */
    | UniqueConstraintViolated
    /** `patient.create` refusing a value that is not a member of the BLOODTYPE enum */
    | InvalidEnumValue
    /** 'INVALID_CREDENTIALS' */
    | InvalidCredentials
    /** 'USER_NOT_FOUND' */
    | UserNotFound
    /** 'INVALID_RESET_TOKEN' */
    | InvalidResetToken

  /** Everything a flow can change: the tables, the OTP store and the mail outbox. */
  datatype World = World(db: Tables, otps: Entries, outbox: seq<Message>)

  datatype Step<T> = Step(result: Result<T, AuthError>, world: World)

  datatype AuthResponse = AuthResponse(userId: string, role: string, accessToken: string)

  /** `RegisterPatientResult`: the response body plus the refresh token for the cookie. */
  datatype Session = Session(authResponse: AuthResponse, refreshToken: string)

  /** Configuration: the primitives, `ENCRYPTION_KEY` and `FRONTEND_URL`. */
  datatype Env = Env(p: Primitives, encryptionKey: string, frontendUrl: string)

  /** The random inputs of one registration: four GCM nonces and a bcrypt salt. */
  datatype RegisterCoins = RegisterCoins(ivFirstName: Iv, ivLastName: Iv, ivAddress: Iv, ivDateOfBirth: Iv, salt: Bytes)

  /** `crypto.randomBytes(32)` for a reset token. */
  type ResetSecret = b: Bytes | |b| == RESET_TOKEN_BYTES witness seq(32, _ => 0 as Byte)

  const OTP_SUBJECT: string := "TobCare \U{2013} Your verification code"
  const OTP_TEMPLATE: string := "otp"
  const RESET_SUBJECT: string := "TobCare \U{2013} Reset your password"
  const RESET_TEMPLATE: string := "forgot-password"
  const RESET_PATH: string := "/auth/reset-password?token="

  function OtpMessage(email: string, otp: string): Message {
    Message(email, OTP_SUBJECT, OTP_TEMPLATE, otp)
  }

  function ResetUrl(frontendUrl: string, rawToken: string): string {
    frontendUrl + RESET_PATH + rawToken
  }

  function ResetMessage(email: string, resetUrl: string): Message {
    Message(email, RESET_SUBJECT, RESET_TEMPLATE, resetUrl)
  }

  // ---------------------------------------------------------------- flows

  /** `sendOtpToEmail(email)` with the code already drawn: store it, then mail it. */
  function SendOtp(w: World, email: string, otp: string, now: int): World {
    w.(otps := Stored(w.otps, email, otp, now), outbox := w.outbox + [OtpMessage(email, otp)])
  }

  /** `saveRefreshToken(prisma, userId, token)`. */
  function SavedRefreshToken(t: Tables, userId: string, token: string, now: int): Tables
    requires AllDigits(userId)
  {
    t.(refreshTokens := t.refreshTokens + [RefreshToken(token, DecimalValue(userId), now + REFRESH_TOKEN_TTL_MS)])
  }

  /** The row `tx.user.create` inserts for a registration. */
  function NewUser(t: Tables, env: Env, input: RegisterPatientInput, role: Role, country: Country, now: int, coins: RegisterCoins): User {
    User(
      id := |t.users| + 1,
      username := input.username,
      firstName := Encrypt(env.p, env.encryptionKey, coins.ivFirstName, input.firstName),
      lastName := Encrypt(env.p, env.encryptionKey, coins.ivLastName, input.lastName),
      email := input.email,
      passwordHash := env.p.bcryptHash(input.password, BCRYPT_ROUNDS, coins.salt),
      phoneNumber := EncryptDeterministic(env.p, env.encryptionKey, FullPhone(country.phoneCode, input.phoneNumber)),
      countryId := input.countryId,
      roleId := role.id,
      createdAt := now,
      lastLoginAt := None)
  }

  /** The row `tx.patient.create` inserts for a registration. */
  function NewPatient(env: Env, input: RegisterPatientInput, userId: UserId, bloodType: BloodType, coins: RegisterCoins): Patient {
    Patient(
      userId := userId,
      dateOfBirth := Encrypt(env.p, env.encryptionKey, coins.ivDateOfBirth, input.dateOfBirth),
      gender := input.gender,
      bloodType := bloodType,
      address := Encrypt(env.p, env.encryptionKey, coins.ivAddress, input.address))
  }

  /** The token pair issued for a user and the response that carries it. */
  function IssueSession(env: Env, payload: TokenPayload, now: int): Session {
    Session(AuthResponse(payload.userId, payload.role, env.p.signAccess(payload, now)), env.p.signRefresh(payload, now))
  }

  /** `registerPatient(prisma, input)`. */
  function Register(w: World, env: Env, input: RegisterPatientInput, now: int, coins: RegisterCoins): Step<Session> {
    var otps := AfterConsume(w.otps, input.email, input.otp, now);
    if !Accepts(w.otps, input.email, input.otp, now) then Step(Err(InvalidOtp), w.(otps := otps))
    else
      var w1 := w.(otps := otps);
      match FindRoleByName(w.db.roles, PATIENT_ROLE)
      case None => Step(Err(RoleConfigurationMissing), w1)
      case Some(role) =>
        match FindCountry(w.db.countries, input.countryId)
        case None => Step(Err(CountryNotFound), w1)
        case Some(country) =>
          var lookup := LookupBloodType(input.bloodType);
          if lookup.Missing? then Step(Err(InvalidBloodType), w1)
          else
            var user := NewUser(w.db, env, input, role, country, now, coins);
            if Clashes(w.db.users, user) then Step(Err(UniqueConstraintViolated), w1)
            else if lookup.Inherited? then Step(Err(InvalidEnumValue), w1)
            else
              var patient := NewPatient(env, input, user.id, lookup.bloodType, coins);
              var payload := TokenPayload(DecimalString(user.id), role.role);
              var session := IssueSession(env, payload, now);
              var db := w.db.(users := w.db.users + [user], patients := w.db.patients + [patient]);
              Step(Ok(session), w1.(db := SavedRefreshToken(db, payload.userId, session.refreshToken, now)))
  }

  /** `login(prisma, { identifier, password })`; `draws` feed `generateOtp`. */
  function Login(w: World, env: Env, identifier: string, password: string, draws: seq<real>, now: int): Step<string>
    requires |draws| == OTP_LENGTH && AreRandoms(draws)
  {
    match FindUserByIdentifier(w.db.users, identifier)
    case None => Step(Err(InvalidCredentials), w)
    case Some(i) =>
      var user := w.db.users[i];
      if !env.p.bcryptCompare(password, user.passwordHash) then Step(Err(InvalidCredentials), w)
      else Step(Ok(OTP_SENT), SendOtp(w, user.email, DigitsOf(draws), now))
  }

  /** `verifyLoginOtp(prisma, { identifier, otp })`. */
  function VerifyLoginOtp(w: World, env: Env, identifier: string, otp: string, now: int): Step<Session>
    requires Valid(w.db)
  {
    match FindUserByIdentifier(w.db.users, identifier)
    case None => Step(Err(UserNotFound), w)
    case Some(i) =>
      var user := w.db.users[i];
      var otps := AfterConsume(w.otps, user.email, otp, now);
      if !Accepts(w.otps, user.email, otp, now) then Step(Err(InvalidOtp), w.(otps := otps))
      else
        var role := FindRoleById(w.db.roles, user.roleId);
        assert role.Some?;
        var payload := TokenPayload(DecimalString(user.id), role.value.role);
        var session := IssueSession(env, payload, now);
        var db := w.db.(users := w.db.users[i := user.(lastLoginAt := Some(now))]);
        Step(Ok(session), World(SavedRefreshToken(db, payload.userId, session.refreshToken, now), otps, w.outbox))
  }

  /** `requestPasswordReset(prisma, email)`; `secret` is the token's 32 random bytes. */
  function RequestPasswordReset(w: World, env: Env, email: string, secret: ResetSecret, now: int): Step<()> {
    match FindUserByEmail(w.db.users, email)
    case None => Step(Ok(()), w)
    case Some(i) =>
      var rawToken := Hex(secret);
      var hashedToken := HashToken(env.p, rawToken);
      if FindResetToken(w.db.resetTokens, hashedToken).Some? then Step(Err(UniqueConstraintViolated), w)
      else
        var row := ResetToken(hashedToken, w.db.users[i].id, now + RESET_TOKEN_TTL_MS);
        Step(Ok(()), World(w.db.(resetTokens := w.db.resetTokens + [row]), w.otps,
                           w.outbox + [ResetMessage(email, ResetUrl(env.frontendUrl, rawToken))]))
  }

  /** `passwordResetToken.deleteMany({ where: { userId } })`. */
  function ResetTokensNotOwnedBy(rows: seq<ResetToken>, userId: UserId): (kept: seq<ResetToken>)
    ensures forall r :: r in kept <==> r in rows && r.userId != userId
  {
    Where(rows, (r: ResetToken) => r.userId != userId)
  }

  /** `refreshToken.deleteMany({ where: { userId } })`. */
  function RefreshTokensNotOwnedBy(rows: seq<RefreshToken>, userId: UserId): (kept: seq<RefreshToken>)
    ensures forall r :: r in kept <==> r in rows && r.userId != userId
  {
    Where(rows, (r: RefreshToken) => r.userId != userId)
  }

  /** `resetPassword(prisma, { token, password })`. */
  function ResetPassword(w: World, env: Env, token: string, password: string, salt: Bytes, now: int): Step<()>
    requires UsersNumbered(w.db.users) && ResetOwnersExist(w.db.resetTokens, |w.db.users|)
  {
    match FindResetToken(w.db.resetTokens, HashToken(env.p, token))
    case None => Step(Err(InvalidResetToken), w)
    case Some(k) =>
      var row := w.db.resetTokens[k];
      if row.expiresAt < now then Step(Err(InvalidResetToken), w)
      else
        var u := row.userId - 1;
        var users := w.db.users[u := w.db.users[u].(passwordHash := env.p.bcryptHash(password, BCRYPT_ROUNDS, salt))];
        var db := w.db.(users := users,
                        resetTokens := ResetTokensNotOwnedBy(w.db.resetTokens, row.userId),
                        refreshTokens := RefreshTokensNotOwnedBy(w.db.refreshTokens, row.userId));
        Step(Ok(()), w.(db := db))
  }
}

=== FILE: auth_service.dfy ===
/**
 * The credential service as the sequence of reads and writes the code performs: one
 * method per exported operation of src/services/auth.service.ts, acting on the tables
 * (`Database`), the process-wide OTP map (`OtpStore`) and the mail outbox (`Mailer`).
 * Each method is proved to leave exactly the state, and return exactly the result, that
 * the matching function of module AuthRules gives.
 */
module AuthService {
  import opened Wrappers
  import opened Primitives
  import opened Encryption
  import opened Otp
  import opened Validation
  import opened Tables
  import opened Mail
  import opened AuthRules

  /** The state the three objects hold together. */
  ghost function WorldOf(db: Database, store: OtpStore, mailer: Mailer): World
    reads db, store, mailer
  {
    World(db.Snapshot(), store.entries, mailer.sent)
  }

  /** `sendOtpToEmail(email)`: generate a code, store it, mail it. */
  method SendOtpToEmail(store: OtpStore, mailer: Mailer, email: string, draws: seq<real>, now: int)
    requires |draws| == OTP_LENGTH && AreRandoms(draws)
    modifies store, mailer
    ensures store.entries == Stored(old(store.entries), email, DigitsOf(draws), now)
    ensures mailer.sent == old(mailer.sent) + [OtpMessage(email, DigitsOf(draws))]
  {
    var otp := GenerateOtp(draws);
    store.Store(email, otp, now);
    mailer.Send(OtpMessage(email, otp));
  }

  /** `saveRefreshToken(prisma, userId, token)`. */
  method SaveRefreshToken(db: Database, userId: string, token: string, now: int)
    requires Chars.AllDigits(userId)
    modifies db
    ensures db.Snapshot() == SavedRefreshToken(old(db.Snapshot()), userId, token, now)
  {
    db.refreshTokens := db.refreshTokens + [RefreshToken(token, DecimalValue(userId), now + REFRESH_TOKEN_TTL_MS)];
  }

  /** `registerPatient(prisma, input)`; the `$transaction` either adds both rows or neither. */
  method RegisterPatient(db: Database, store: OtpStore, mailer: Mailer, env: Env, input: RegisterPatientInput,
                         now: int, coins: RegisterCoins) returns (result: Result<Session, AuthError>)
    modifies db, store
    ensures Step(result, WorldOf(db, store, mailer)) == Register(old(WorldOf(db, store, mailer)), env, input, now, coins)
  {
    var consumed := store.Consume(input.email, input.otp, now);
    if !consumed {
      return Err(InvalidOtp);
    }
    var patientRole := FindRoleByName(db.roles, PATIENT_ROLE);
    if patientRole.None? {
      return Err(RoleConfigurationMissing);
    }
    var country := FindCountry(db.countries, input.countryId);
    if country.None? {
      return Err(CountryNotFound);
    }
    var fullPhone := FullPhone(country.value.phoneCode, input.phoneNumber);
    var passwordHash := env.p.bcryptHash(input.password, BCRYPT_ROUNDS, coins.salt);
    var bloodType := LookupBloodType(input.bloodType);
    if bloodType.Missing? {
      return Err(InvalidBloodType);
    }
    var encryptedFirstName := Encrypt(env.p, env.encryptionKey, coins.ivFirstName, input.firstName);
    var encryptedLastName := Encrypt(env.p, env.encryptionKey, coins.ivLastName, input.lastName);
    var encryptedPhone := EncryptDeterministic(env.p, env.encryptionKey, fullPhone);
    var encryptedAddress := Encrypt(env.p, env.encryptionKey, coins.ivAddress, input.address);
    var encryptedDob := Encrypt(env.p, env.encryptionKey, coins.ivDateOfBirth, input.dateOfBirth);

    // tx.user.create
    var newUser := User(|db.users| + 1, input.username, encryptedFirstName, encryptedLastName, input.email,
                        passwordHash, encryptedPhone, input.countryId, patientRole.value.id, now, None);
    if Clashes(db.users, newUser) {
      return Err(UniqueConstraintViolated);
    }
    var usersBefore := db.users;
    db.users := db.users + [newUser];
    // tx.patient.create: the enum column refuses anything but a BLOODTYPE member
    if bloodType.Inherited? {
      db.users := usersBefore;
      return Err(InvalidEnumValue);
    }
    db.patients := db.patients + [Patient(newUser.id, encryptedDob, input.gender, bloodType.bloodType, encryptedAddress)];

    var payload := TokenPayload(DecimalString(newUser.id), patientRole.value.role);
    var accessToken := env.p.signAccess(payload, now);
    var refreshToken := env.p.signRefresh(payload, now);
    SaveRefreshToken(db, payload.userId, refreshToken, now);
    return Ok(Session(AuthResponse(payload.userId, payload.role, accessToken), refreshToken));
  }

  /** `login(prisma, input)`: check the credentials, then send a login code. */
  method Login(db: Database, store: OtpStore, mailer: Mailer, env: Env, identifier: string, password: string,
               draws: seq<real>, now: int) returns (result: Result<string, AuthError>)
    requires |draws| == OTP_LENGTH && AreRandoms(draws)
    modifies store, mailer
    ensures Step(result, WorldOf(db, store, mailer)) == AuthRules.Login(old(WorldOf(db, store, mailer)), env, identifier, password, draws, now)
  {
    var found := FindUserByIdentifier(db.users, identifier);
    if found.None? || !env.p.bcryptCompare(password, db.users[found.value].passwordHash) {
      return Err(InvalidCredentials);
    }
    SendOtpToEmail(store, mailer, db.users[found.value].email, draws, now);
    return Ok(OTP_SENT);
  }

  /** `verifyLoginOtp(prisma, input)`: redeem the login code, stamp the login, issue tokens. */
  method VerifyLoginOtp(db: Database, store: OtpStore, mailer: Mailer, env: Env, identifier: string, otp: string,
                        now: int) returns (result: Result<Session, AuthError>)
    requires Valid(db.Snapshot())
    modifies db, store
    ensures Step(result, WorldOf(db, store, mailer)) == AuthRules.VerifyLoginOtp(old(WorldOf(db, store, mailer)), env, identifier, otp, now)
  {
    var found := FindUserByIdentifier(db.users, identifier);
    if found.None? {
      return Err(UserNotFound);
    }
    var user := db.users[found.value];
    var consumed := store.Consume(user.email, otp, now);
    if !consumed {
      return Err(InvalidOtp);
    }
    db.users := db.users[found.value := user.(lastLoginAt := Some(now))];
    var role := FindRoleById(db.roles, user.roleId);
    var payload := TokenPayload(DecimalString(user.id), role.value.role);
    var accessToken := env.p.signAccess(payload, now);
    var refreshToken := env.p.signRefresh(payload, now);
    SaveRefreshToken(db, payload.userId, refreshToken, now);
    return Ok(Session(AuthResponse(payload.userId, payload.role, accessToken), refreshToken));
  }

  /** `requestPasswordReset(prisma, email)`; `secret` stands for `crypto.randomBytes(32)`. */
  method RequestPasswordReset(db: Database, store: OtpStore, mailer: Mailer, env: Env, email: string,
                              secret: ResetSecret, now: int) returns (result: Result<(), AuthError>)
    modifies db, mailer
    ensures Step(result, WorldOf(db, store, mailer)) == AuthRules.RequestPasswordReset(old(WorldOf(db, store, mailer)), env, email, secret, now)
  {
    var found := FindUserByEmail(db.users, email);
    if found.Some? {
      var rawToken := Hex(secret);
      var hashedToken := HashToken(env.p, rawToken);
      if FindResetToken(db.resetTokens, hashedToken).Some? {
        return Err(UniqueConstraintViolated);
      }
      db.resetTokens := db.resetTokens + [ResetToken(hashedToken, db.users[found.value].id, now + RESET_TOKEN_TTL_MS)];
      mailer.Send(ResetMessage(email, ResetUrl(env.frontendUrl, rawToken)));
    }
    return Ok(());
  }

  /** `resetPassword(prisma, input)`; the `$transaction` applies the update and both deletions. */
  method ResetPassword(db: Database, store: OtpStore, mailer: Mailer, env: Env, token: string, password: string,
                       salt: Bytes, now: int) returns (result: Result<(), AuthError>)
    requires UsersNumbered(db.users) && ResetOwnersExist(db.resetTokens, |db.users|)
    modifies db
    ensures Step(result, WorldOf(db, store, mailer)) == AuthRules.ResetPassword(old(WorldOf(db, store, mailer)), env, token, password, salt, now)
  {
    var hashedToken := HashToken(env.p, token);
    var found := FindResetToken(db.resetTokens, hashedToken);
    if found.None? || db.resetTokens[found.value].expiresAt < now {
      return Err(InvalidResetToken);
    }
    var userId := db.resetTokens[found.value].userId;
    var passwordHash := env.p.bcryptHash(password, BCRYPT_ROUNDS, salt);
    db.users := db.users[userId - 1 := db.users[userId - 1].(passwordHash := passwordHash)];
    db.resetTokens := ResetTokensNotOwnedBy(db.resetTokens, userId);
    db.refreshTokens := RefreshTokensNotOwnedBy(db.refreshTokens, userId);
    return Ok(());
  }
}

=== FILE: chars.dfy ===
/**
 * Character classes used by the validators, the OTP code and the phone normaliser, and the
 * string length JavaScript reports.
 */
module Chars {

  /** The regular-expression class `[0-9]` (JavaScript `\d` without the `u` flag). */
  predicate IsDigit(c: char) {
    '0' <= c <= '9'
  }

  predicate IsUpperAscii(c: char) {
    'A' <= c <= 'Z'
  }

  predicate IsLowerAscii(c: char) {
    'a' <= c <= 'z'
  }

  predicate AllDigits(s: string) {
    forall i :: 0 <= i < |s| ==> IsDigit(s[i])
  }

  /** The character that spells the decimal digit `d`. */
  function DigitChar(d: int): (c: char)
    requires 0 <= d < 10
    ensures IsDigit(c)
    ensures DigitValue(c) == d
  {
    ('0' as int + d) as char
  }

  function DigitValue(c: char): (d: int)
    requires IsDigit(c)
    ensures 0 <= d < 10
  {
    c as int - '0' as int
  }

  /** `String.prototype.toLowerCase` on one character, restricted to the ASCII letters. */
  function LowerChar(c: char): (l: char)
    ensures !IsUpperAscii(l)
    ensures IsUpperAscii(c) ==> l as int == c as int + 32
    ensures !IsUpperAscii(c) ==> l == c
  {
    if IsUpperAscii(c) then (c as int + 32) as char else c
  }

  function Lower(s: string): (l: string)
    ensures |l| == |s|
    ensures forall i :: 0 <= i < |s| ==> l[i] == LowerChar(s[i])
  {
    seq(|s|, i requires 0 <= i < |s| => LowerChar(s[i]))
  }

  /** Lower-casing twice is lower-casing once. */
  lemma LowerIdempotent(s: string)
    ensures Lower(Lower(s)) == Lower(s)
  {
  }

  /** Two strings that differ only in the case of ASCII letters lower-case to the same key. */
  lemma LowerIgnoresCase(s: string, t: string)
    requires |s| == |t|
    requires forall i :: 0 <= i < |s| ==> LowerChar(s[i]) == LowerChar(t[i])
    ensures Lower(s) == Lower(t)
  {
  }

  /** `s.replace(/\D/g, '')`: the decimal digits of `s`, in order. */
  function DigitsOnly(s: string): (d: string)
    ensures |d| <= |s| && AllDigits(d)
  {
    if s == [] then []
    else (if IsDigit(s[0]) then [s[0]] else []) + DigitsOnly(s[1..])
  }

  /** Removing the non-digits of a concatenation removes them from each part. */
  lemma {:induction false} DigitsOnlyAppend(s: string, t: string)
    ensures DigitsOnly(s + t) == DigitsOnly(s) + DigitsOnly(t)
  {
    if s == [] {
      assert s + t == t;
    } else {
      assert (s + t)[0] == s[0] && (s + t)[1..] == s[1..] + t;
      DigitsOnlyAppend(s[1..], t);
      var head := if IsDigit(s[0]) then [s[0]] else [];
      assert DigitsOnly(s + t) == head + DigitsOnly(s[1..] + t);
    }
  }

  /** A string without digits is removed entirely: every non-digit character is dropped. */
  lemma {:induction false} DigitsOnlyOfNonDigits(s: string)
    requires forall i :: 0 <= i < |s| ==> !IsDigit(s[i])
    ensures DigitsOnly(s) == []
  {
    if s != [] {
      DigitsOnlyOfNonDigits(s[1..]);
    }
  }

  /** A string of digits is left as it is; hence normalising twice is normalising once. */
  lemma {:induction false} DigitsOnlyOfDigits(s: string)
    requires AllDigits(s)
    ensures DigitsOnly(s) == s
  {
    if s != [] {
      DigitsOnlyOfDigits(s[1..]);
    }
  }

  /** The length JavaScript reports: characters outside the BMP take two code units. */
  function Utf16Length(s: string): (n: nat)
    ensures |s| <= n <= 2 * |s|
  {
    if s == [] then 0 else (if s[0] as int >= 0x10000 then 2 else 1) + Utf16Length(s[1..])
  }

  /** Inside the Basic Multilingual Plane every character is one code unit. */
  lemma {:induction false} BmpUtf16Length(s: string)
    requires forall i :: 0 <= i < |s| ==> s[i] as int < 0x10000
    ensures Utf16Length(s) == |s|
  {
    if s != [] {
      BmpUtf16Length(s[1..]);
    }
  }
}

=== FILE: cleanup.dfy ===
/**
 * The expired-token sweep (src/jobs/cleanup.ts): one captured `now`, then two
 * `deleteMany` calls with the strict cutoff `expiresAt < now`. A persistence failure is
 * caught and logged; it never reaches the caller. Which `deleteMany`, if any, fails is
 * the `fault` parameter.
 */
module Cleanup {
  import opened Tables

  /** The refresh rows `refreshToken.deleteMany({ where: { expiresAt: { lt: now } } })` keeps. */
  function UnexpiredRefreshTokens(rows: seq<RefreshToken>, now: int): (kept: seq<RefreshToken>)
    ensures forall r :: r in kept <==> r in rows && r.expiresAt >= now
  {
    Where(rows, (r: RefreshToken) => !(r.expiresAt < now))
  }

  /** The reset rows `passwordResetToken.deleteMany({ where: { expiresAt: { lt: now } } })` keeps. */
  function UnexpiredResetTokens(rows: seq<ResetToken>, now: int): (kept: seq<ResetToken>)
    ensures forall r :: r in kept <==> r in rows && r.expiresAt >= now
  {
    Where(rows, (r: ResetToken) => !(r.expiresAt < now))
  }

  function ExpiredRefreshTokens(rows: seq<RefreshToken>, now: int): seq<RefreshToken> {
    Where(rows, (r: RefreshToken) => r.expiresAt < now)
  }

  function ExpiredResetTokens(rows: seq<ResetToken>, now: int): seq<ResetToken> {
    Where(rows, (r: ResetToken) => r.expiresAt < now)
  }

  datatype Fault = NoFault | RefreshDeleteFails | ResetDeleteFails

  /** The job's console output: both counts, or the caught failure. */
  datatype CleanupLog = Removed(refreshTokens: nat, resetTokens: nat) | Failed

  datatype SweepResult = SweepResult(tables: Tables, log: CleanupLog)

  /** The tables and the log after `cleanupExpiredTokens` at time `now`. */
  function Sweep(t: Tables, now: int, fault: Fault): (r: SweepResult)
    ensures r.tables.users == t.users && r.tables.patients == t.patients
    ensures r.tables.roles == t.roles && r.tables.countries == t.countries
    ensures r.log.Failed? <==> fault != NoFault
  {
    var refresh := UnexpiredRefreshTokens(t.refreshTokens, now);
    var reset := UnexpiredResetTokens(t.resetTokens, now);
    match fault
    case RefreshDeleteFails => SweepResult(t, Failed)
    case ResetDeleteFails => SweepResult(t.(refreshTokens := refresh), Failed)
    case NoFault =>
      SweepResult(t.(refreshTokens := refresh, resetTokens := reset),
                  Removed(|t.refreshTokens| - |refresh|, |t.resetTokens| - |reset|))
  }

  /** `cleanupExpiredTokens(prisma)`; `now` is the single `new Date()` both deletes compare against. */
  method CleanupExpiredTokens(db: Database, now: int, fault: Fault) returns (log: CleanupLog)
    modifies db
    ensures SweepResult(db.Snapshot(), log) == Sweep(old(db.Snapshot()), now, fault)
  {
    if fault == RefreshDeleteFails {
      return Failed;
    }
    var refreshBefore := |db.refreshTokens|;
    db.refreshTokens := UnexpiredRefreshTokens(db.refreshTokens, now);
    var refreshCount := refreshBefore - |db.refreshTokens|;
    if fault == ResetDeleteFails {
      return Failed;
    }
    var resetBefore := |db.resetTokens|;
    db.resetTokens := UnexpiredResetTokens(db.resetTokens, now);
    var resetCount := resetBefore - |db.resetTokens|;
    log := Removed(refreshCount, resetCount);
  }

  // ---------------------------------------------------------------- properties

  /** After a sweep that did not fail, neither token table holds a row with `expiresAt < now`. */
  lemma SweepLeavesNoExpiredRows(t: Tables, now: int)
    ensures forall r :: r in Sweep(t, now, NoFault).tables.refreshTokens ==> !(r.expiresAt < now)
    ensures forall r :: r in Sweep(t, now, NoFault).tables.resetTokens ==> !(r.expiresAt < now)
  {
  }

  /** No sweep, failing or not, deletes a row expiring at or after `now`, nor adds one. */
  lemma SweepKeepsLiveRows(t: Tables, now: int, fault: Fault)
    ensures forall r :: r in t.refreshTokens && r.expiresAt >= now <==> r in Sweep(t, now, fault).tables.refreshTokens && r.expiresAt >= now
    ensures forall r :: r in t.resetTokens && r.expiresAt >= now <==> r in Sweep(t, now, fault).tables.resetTokens && r.expiresAt >= now
  {
  }

  /** The logged counts are the numbers of expired rows in each table. */
  lemma {:induction false} SweepCounts(t: Tables, now: int)
    ensures Sweep(t, now, NoFault).log
         == Removed(|ExpiredRefreshTokens(t.refreshTokens, now)|, |ExpiredResetTokens(t.resetTokens, now)|)
  {
    WherePartition(t.refreshTokens, (r: RefreshToken) => !(r.expiresAt < now), (r: RefreshToken) => r.expiresAt < now);
    WherePartition(t.resetTokens, (r: ResetToken) => !(r.expiresAt < now), (r: ResetToken) => r.expiresAt < now);
  }

  /** A second sweep at the same instant finds nothing to remove and changes nothing. */
  lemma {:induction false} SweepIdempotent(t: Tables, now: int)
    ensures Sweep(Sweep(t, now, NoFault).tables, now, NoFault)
         == SweepResult(Sweep(t, now, NoFault).tables, Removed(0, 0))
  {
    WhereIdempotent(t.refreshTokens, (r: RefreshToken) => !(r.expiresAt < now));
    WhereIdempotent(t.resetTokens, (r: ResetToken) => !(r.expiresAt < now));
  }

  /** Sweeping keeps the database's integrity constraints. */
  lemma SweepPreservesValid(t: Tables, now: int, fault: Fault)
    requires Valid(t)
    ensures Valid(Sweep(t, now, fault).tables)
  {
    FilterRefreshKeepsOwners(t.refreshTokens, (r: RefreshToken) => !(r.expiresAt < now), |t.users|);
    FilterResetKeepsConstraints(t.resetTokens, (r: ResetToken) => !(r.expiresAt < now), |t.users|);
  }
}

=== FILE: encryption.dfy ===
/**
 * Field encryption (src/utils/encryption.ts): the `iv:ciphertext:tag` envelope of the
 * random-IV AES-256-GCM mode, the fixed-IV AES-256-CBC mode used for searchable fields,
 * and the SHA-256 hash under which reset tokens are stored.
 *
 * The cipher and hash themselves are the uninterpreted primitives of module Primitives;
 * what is modelled here is the code around them: hex encoding, the envelope join and
 * split, the format check, and the IV derivation.
 */
module Encryption {
  import opened Wrappers
  import opened Primitives
  import opened Chars

  const IV_LENGTH: nat := 12
  /** The deterministic mode takes the first 16 bytes of SHA-256(KEY) as its IV. */
  const DETERMINISTIC_IV_LENGTH: nat := 16
  const SEPARATOR: char := ':'

  /** A fresh GCM nonce as `crypto.randomBytes(IV_LENGTH)` returns it. */
  type Iv = b: Bytes | |b| == IV_LENGTH witness seq(12, _ => 0 as Byte)

  datatype DecryptError =
    /** 'Invalid encrypted data format': a segment is missing or empty */
    | InvalidFormat
    /** `decipher.final` threw: wrong key, tampered data, a tag that does not match, or bad padding */
    | DecipherFailed
    /** `decipher.update(data, 'hex', ...)` threw: hex input of odd length */
    | OddHexLength
    /** `createDecipheriv` threw 'Invalid initialization vector': the IV decodes to no bytes */
    | InvalidIv
    /** `setAuthTag` threw 'Invalid authentication tag length': not a length GCM allows */
    | InvalidTagLength

  /** The tag lengths, in bytes, that `decipher.setAuthTag` accepts for GCM. */
  const GCM_TAG_LENGTHS: set<nat> := {4, 8, 12, 13, 14, 15, 16}

  // ---------------------------------------------------------------- hex

  /** The characters `Buffer.toString('hex')` produces: lower-case hexadecimal digits. */
  predicate IsLowerHex(c: char) {
    '0' <= c <= '9' || 'a' <= c <= 'f'
  }

  predicate AllLowerHex(s: string) {
    forall i :: 0 <= i < |s| ==> IsLowerHex(s[i])
  }

  function HexChar(n: int): (c: char)
    requires 0 <= n < 16
    ensures IsLowerHex(c)
  {
    if n < 10 then ('0' as int + n) as char else ('a' as int + n - 10) as char
  }

  /** The value of a hexadecimal digit, either case, as `Buffer.from(s, 'hex')` reads it. */
  function HexValue(c: char): (v: Option<int>)
    ensures v.Some? ==> 0 <= v.value < 16
  {
    if '0' <= c <= '9' then Some(c as int - '0' as int)
    else if 'a' <= c <= 'f' then Some(c as int - 'a' as int + 10)
    else if 'A' <= c <= 'F' then Some(c as int - 'A' as int + 10)
    else None
  }

  /** `Buffer.toString('hex')`: two lower-case digits per byte, high nibble first. */
  function Hex(bs: Bytes): (h: string)
    ensures |h| == 2 * |bs|
    ensures AllLowerHex(h)
  {
    if bs == [] then []
    else [HexChar(bs[0] as int / 16), HexChar(bs[0] as int % 16)] + Hex(bs[1..])
  }

  /** Hex digits never include the envelope separator. */
  lemma LowerHexHasNoSeparator(h: string)
    requires AllLowerHex(h)
    ensures SEPARATOR !in h
  {
  }

  /** Hex digits are ASCII, so JavaScript counts one code unit per digit. */
  lemma LowerHexUtf16Length(h: string)
    requires AllLowerHex(h)
    ensures Utf16Length(h) == |h|
  {
    BmpUtf16Length(h);
  }

  /**
   * `Buffer.from(h, 'hex')`: decodes pairs of digits from the left and silently stops at
   * the first pair that is not two hexadecimal digits (a trailing odd digit included).
   */
  function UnHex(h: string): (bs: Bytes)
    ensures |bs| <= |h| / 2
  {
    if |h| < 2 then []
    else match (HexValue(h[0]), HexValue(h[1]))
      case (Some(hi), Some(lo)) => [(16 * hi + lo) as Byte] + UnHex(h[2..])
      case _ => []
  }

  lemma HexValueOfHexChar(n: int)
    requires 0 <= n < 16
    ensures HexValue(HexChar(n)) == Some(n)
  {
  }

  /** Hex decoding inverts hex encoding. */
  lemma {:induction false} UnHexHex(bs: Bytes)
    ensures UnHex(Hex(bs)) == bs
  {
    if bs != [] {
      var b := bs[0] as int;
      HexValueOfHexChar(b / 16);
      HexValueOfHexChar(b % 16);
      var h := Hex(bs);
      assert h[2..] == Hex(bs[1..]);
      UnHexHex(bs[1..]);
    }
  }

  // ---------------------------------------------------------------- split and join

  /** `String.prototype.split(sep)`: every segment, empty ones included; never an empty list. */
  function Split(s: string, sep: char): (parts: seq<string>)
    ensures |parts| >= 1
  {
    if s == [] then [[]]
    else
      var rest := Split(s[1..], sep);
      if s[0] == sep then [[]] + rest else [[s[0]] + rest[0]] + rest[1..]
  }

  /** `Array.prototype.join(sep)` on a non-empty list of segments. */
  function Join(parts: seq<string>, sep: char): (s: string)
    requires |parts| >= 1
  {
    if |parts| == 1 then parts[0] else parts[0] + [sep] + Join(parts[1..], sep)
  }

  /** Splitting and re-joining gives the string back. */
  lemma {:induction false} JoinSplit(s: string, sep: char)
    ensures Join(Split(s, sep), sep) == s
  {
    if s != [] {
      var rest := Split(s[1..], sep);
      JoinSplit(s[1..], sep);
      if s[0] == sep {
        assert Split(s, sep)[1..] == rest;
      } else {
        var parts := Split(s, sep);
        if |rest| == 1 {
          assert parts == [[s[0]] + rest[0]];
        } else {
          assert parts[1..] == rest[1..];
          assert Join(rest, sep) == rest[0] + [sep] + Join(rest[1..], sep);
        }
      }
    }
  }

  lemma {:induction false} SplitWithoutSeparator(a: string, sep: char)
    requires sep !in a
    ensures Split(a, sep) == [a]
  {
    if a != [] {
      SplitWithoutSeparator(a[1..], sep);
      assert [a[0]] + a[1..] == a;
    }
  }

  lemma {:induction false} SplitAtFirstSeparator(a: string, sep: char, r: string)
    requires sep !in a
    ensures Split(a + [sep] + r, sep) == [a] + Split(r, sep)
  {
    if a == [] {
      assert a + [sep] + r == [sep] + r;
      assert ([sep] + r)[1..] == r;
    } else {
      assert (a + [sep] + r)[1..] == a[1..] + [sep] + r;
      SplitAtFirstSeparator(a[1..], sep, r);
      assert [a[0]] + a[1..] == a;
    }
  }

  /** Joining segments that do not contain the separator and splitting again gives them back. */
  lemma {:induction false} SplitJoin(parts: seq<string>, sep: char)
    requires |parts| >= 1
    requires forall i :: 0 <= i < |parts| ==> sep !in parts[i]
    ensures Split(Join(parts, sep), sep) == parts
  {
    if |parts| == 1 {
      SplitWithoutSeparator(parts[0], sep);
    } else {
      SplitJoin(parts[1..], sep);
      SplitAtFirstSeparator(parts[0], sep, Join(parts[1..], sep));
    }
  }

  lemma SplitThree(a: string, b: string, c: string)
    requires SEPARATOR !in a && SEPARATOR !in b && SEPARATOR !in c
    ensures Split(a + [SEPARATOR] + b + [SEPARATOR] + c, SEPARATOR) == [a, b, c]
  {
    assert [a, b, c][1..] == [b, c] && [b, c][1..] == [c];
    assert Join([b, c], SEPARATOR) == b + [SEPARATOR] + c;
    assert Join([a, b, c], SEPARATOR) == a + [SEPARATOR] + b + [SEPARATOR] + c;
    SplitJoin([a, b, c], SEPARATOR);
  }

  // ---------------------------------------------------------------- random-IV mode

  /** `Buffer.from(KEY, 'hex')`. */
  function KeyBytes(key: string): Bytes {
    UnHex(key)
  }

  function Seal(p: Primitives, key: string, iv: Bytes, text: string): Sealed {
    p.gcmSeal(KeyBytes(key), iv, p.utf8Encode(text))
  }

  /** `encrypt(text)` with the random IV drawn by `crypto.randomBytes` passed in as `iv`. */
  function Encrypt(p: Primitives, key: string, iv: Iv, text: string): (envelope: string)
    ensures Split(envelope, SEPARATOR)
      == [Hex(iv), Hex(Seal(p, key, iv, text).ciphertext), Hex(Seal(p, key, iv, text).tag)]
    ensures |Split(envelope, SEPARATOR)[0]| == 2 * IV_LENGTH
  {
    var sealed := Seal(p, key, iv, text);
    LowerHexHasNoSeparator(Hex(iv));
    LowerHexHasNoSeparator(Hex(sealed.ciphertext));
    LowerHexHasNoSeparator(Hex(sealed.tag));
    SplitThree(Hex(iv), Hex(sealed.ciphertext), Hex(sealed.tag));
    Hex(iv) + [SEPARATOR] + Hex(sealed.ciphertext) + [SEPARATOR] + Hex(sealed.tag)
  }

  /** The check at the head of `decrypt`: the first three segments exist and are non-empty. */
  predicate WellFormedEnvelope(data: string) {
    var segments := Split(data, SEPARATOR);
    |segments| >= 3 && segments[0] != [] && segments[1] != [] && segments[2] != []
  }

  /**
   * A well-formed envelope whose IV and tag the decipher takes: `createDecipheriv` needs a
   * non-empty IV and `setAuthTag` one of the GCM tag lengths. Both are read leniently by
   * `Buffer.from(_, 'hex')` first, so what counts is the length of what that decodes.
   */
  predicate DecipherReady(data: string) {
    var segments := Split(data, SEPARATOR);
    WellFormedEnvelope(data) && UnHex(segments[0]) != [] && |UnHex(segments[2])| in GCM_TAG_LENGTHS
  }

  /**
   * `decrypt(data)`; a thrown error becomes `Err`. Segments after the third are never read.
   * The checks run in the source's order: the format test, `createDecipheriv` (the IV),
   * `setAuthTag` (the tag), `decipher.update` (odd-length ciphertext hex) and
   * `decipher.final` (authentication).
   */
  function Decrypt(p: Primitives, key: string, data: string): (r: Result<string, DecryptError>)
    ensures r == Err(InvalidFormat) <==> !WellFormedEnvelope(data)
    ensures r == Err(InvalidIv) <==> WellFormedEnvelope(data) && UnHex(Split(data, SEPARATOR)[0]) == []
    ensures r == Err(InvalidTagLength) <==>
      WellFormedEnvelope(data) && UnHex(Split(data, SEPARATOR)[0]) != []
      && |UnHex(Split(data, SEPARATOR)[2])| !in GCM_TAG_LENGTHS
    ensures r == Err(OddHexLength) <==> DecipherReady(data) && Utf16Length(Split(data, SEPARATOR)[1]) % 2 == 1
    ensures r.Ok? ==> DecipherReady(data) && exists pt :: r.value == p.utf8Decode(pt)
  {
    var segments := Split(data, SEPARATOR);
    if !WellFormedEnvelope(data) then Err(InvalidFormat)
    else
      var iv := UnHex(segments[0]);
      var tag := UnHex(segments[2]);
      if iv == [] then Err(InvalidIv)
      else if |tag| !in GCM_TAG_LENGTHS then Err(InvalidTagLength)
      else if Utf16Length(segments[1]) % 2 == 1 then Err(OddHexLength)
      else match p.gcmOpen(KeyBytes(key), iv, UnHex(segments[1]), tag)
      case None => Err(DecipherFailed)
      case Some(pt) => Ok(p.utf8Decode(pt))
  }

  /** Every non-empty field survives a trip through the envelope. */
  lemma DecryptEncrypt(p: Primitives, key: string, iv: Iv, text: string)
    requires Utf8RoundTrip(p) && Utf8EmptyExactly(p)
    requires GcmRoundTrip(p) && GcmLengthPreserving(p)
    requires text != []
    ensures Decrypt(p, key, Encrypt(p, key, iv, text)) == Ok(text)
  {
    var sealed := Seal(p, key, iv, text);
    assert |sealed.ciphertext| == |p.utf8Encode(text)| > 0;
    var envelope := Encrypt(p, key, iv, text);
    var segments := Split(envelope, SEPARATOR);
    assert segments == [Hex(iv), Hex(sealed.ciphertext), Hex(sealed.tag)];
    assert |segments[1]| > 0;
    LowerHexUtf16Length(segments[1]);
    assert WellFormedEnvelope(envelope);
    UnHexHex(iv);
    UnHexHex(sealed.ciphertext);
    UnHexHex(sealed.tag);
    assert DecipherReady(envelope);
    assert p.gcmOpen(KeyBytes(key), iv, sealed.ciphertext, sealed.tag) == Some(p.utf8Encode(text));
  }

  /**
   * The empty string encrypts to an envelope with an empty middle segment, which
   * `decrypt` refuses as malformed: `decrypt(encrypt(""))` throws.
   */
  lemma EmptyPlaintextRejected(p: Primitives, key: string, iv: Iv)
    requires Utf8EmptyExactly(p) && GcmLengthPreserving(p)
    ensures Split(Encrypt(p, key, iv, ""), SEPARATOR)[1] == ""
    ensures Decrypt(p, key, Encrypt(p, key, iv, "")) == Err(InvalidFormat)
  {
    assert p.utf8Encode("") == [];
  }

  /** Anything after the third segment is ignored by `decrypt`. */
  lemma DecryptIgnoresExtraSegments(p: Primitives, key: string, a: string, b: string, c: string, extra: string)
    requires SEPARATOR !in a && SEPARATOR !in b && SEPARATOR !in c
    ensures Decrypt(p, key, a + [SEPARATOR] + b + [SEPARATOR] + c + [SEPARATOR] + extra)
         == Decrypt(p, key, a + [SEPARATOR] + b + [SEPARATOR] + c)
  {
    var abc := a + [SEPARATOR] + b + [SEPARATOR] + c;
    SplitThree(a, b, c);
    assert abc + [SEPARATOR] + extra == a + [SEPARATOR] + (b + [SEPARATOR] + c + [SEPARATOR] + extra);
    SplitAtFirstSeparator(a, SEPARATOR, b + [SEPARATOR] + c + [SEPARATOR] + extra);
    assert b + [SEPARATOR] + c + [SEPARATOR] + extra == b + [SEPARATOR] + (c + [SEPARATOR] + extra);
    SplitAtFirstSeparator(b, SEPARATOR, c + [SEPARATOR] + extra);
    SplitAtFirstSeparator(c, SEPARATOR, extra);
  }

  /** Data with fewer than two separators lacks a segment and is refused before any decryption. */
  lemma DecryptRejectsTwoSegments(p: Primitives, key: string, a: string, b: string)
    requires SEPARATOR !in a && SEPARATOR !in b
    ensures Decrypt(p, key, a) == Err(InvalidFormat)
    ensures Decrypt(p, key, a + [SEPARATOR] + b) == Err(InvalidFormat)
  {
    SplitWithoutSeparator(a, SEPARATOR);
    SplitWithoutSeparator(b, SEPARATOR);
    SplitAtFirstSeparator(a, SEPARATOR, b);
  }

  /**
   * Once the decipher has taken the IV and the tag, a ciphertext segment of odd length is
   * refused whatever the key.
   */
  lemma DecryptRejectsOddCiphertext(p: Primitives, key: string, a: string, b: string, c: string)
    requires SEPARATOR !in a && SEPARATOR !in b && SEPARATOR !in c
    requires UnHex(a) != [] && |UnHex(c)| in GCM_TAG_LENGTHS
    requires Utf16Length(b) % 2 == 1
    ensures Decrypt(p, key, a + [SEPARATOR] + b + [SEPARATOR] + c) == Err(OddHexLength)
  {
    SplitThree(a, b, c);
  }

  /**
   * The odd-length test counts UTF-16 code units, as JavaScript's `length` does: between a
   * 12-byte IV and a 16-byte tag, as `encrypt` writes them, one character outside the Basic
   * Multilingual Plane beside one hex digit is odd, and that character alone is even, so it
   * reaches the decipher and fails there instead.
   */
  lemma OddLengthCountsCodeUnits(p: Primitives, key: string, iv: Iv, tag: Tag)
    ensures Decrypt(p, key, Hex(iv) + [SEPARATOR] + "\U{1F600}a" + [SEPARATOR] + Hex(tag)) == Err(OddHexLength)
    ensures Decrypt(p, key, Hex(iv) + [SEPARATOR] + "\U{1F600}" + [SEPARATOR] + Hex(tag)) != Err(OddHexLength)
    ensures DecryptDeterministic(p, key, "\U{1F600}") != Err(OddHexLength)
  {
    UnHexHex(iv);
    UnHexHex(tag);
    LowerHexHasNoSeparator(Hex(iv));
    LowerHexHasNoSeparator(Hex(tag));
    DecryptRejectsOddCiphertext(p, key, Hex(iv), "\U{1F600}a", Hex(tag));
    SplitThree(Hex(iv), "\U{1F600}", Hex(tag));
  }

  /**
   * The IV and the tag are checked before the ciphertext: an IV that decodes to nothing
   * fails in `createDecipheriv`, and a one-byte tag fails in `setAuthTag`, even when the
   * ciphertext hex is odd as well.
   */
  lemma DecryptChecksIvThenTag(p: Primitives, key: string)
    ensures Decrypt(p, key, "0" + [SEPARATOR] + "abc" + [SEPARATOR] + "abcdabcd") == Err(InvalidIv)
    ensures Decrypt(p, key, "ab" + [SEPARATOR] + "abc" + [SEPARATOR] + "cd") == Err(InvalidTagLength)
  {
    assert UnHex("0") == [];
    assert UnHex("ab") != [] && |UnHex("cd")| == 1;
    SplitThree("0", "abc", "abcdabcd");
    SplitThree("ab", "abc", "cd");
  }

  // ---------------------------------------------------------------- deterministic mode

  /** The fixed IV: the first 16 bytes of SHA-256 over the key string itself. */
  function DeterministicIv(p: Primitives, key: string): (iv: Bytes)
    ensures |iv| == DETERMINISTIC_IV_LENGTH
  {
    p.sha256(p.utf8Encode(key))[..DETERMINISTIC_IV_LENGTH]
  }

  /** `encryptDeterministic(text)`: a function of the key and the text only. */
  function EncryptDeterministic(p: Primitives, key: string, text: string): (r: string)
    ensures AllLowerHex(r) && |r| % 2 == 0
    ensures UnHex(r) == p.cbcEncrypt(KeyBytes(key), DeterministicIv(p, key), p.utf8Encode(text))
  {
    var ct := p.cbcEncrypt(KeyBytes(key), DeterministicIv(p, key), p.utf8Encode(text));
    UnHexHex(ct);
    Hex(ct)
  }

  /**
   * `decryptDeterministic(encrypted)`: `decipher.update` refuses hex of odd length, and a
   * bad-padding throw of `decipher.final` becomes `Err(DecipherFailed)`.
   */
  function DecryptDeterministic(p: Primitives, key: string, encrypted: string): (r: Result<string, DecryptError>)
    ensures r == Err(OddHexLength) <==> Utf16Length(encrypted) % 2 == 1
    ensures r.Err? && Utf16Length(encrypted) % 2 == 0 ==> r.error == DecipherFailed
    ensures r.Ok? ==> exists pt :: r.value == p.utf8Decode(pt)
  {
    if Utf16Length(encrypted) % 2 == 1 then Err(OddHexLength)
    else match p.cbcDecrypt(KeyBytes(key), DeterministicIv(p, key), UnHex(encrypted))
    case None => Err(DecipherFailed)
    case Some(pt) => Ok(p.utf8Decode(pt))
  }

  /** Both directions derive the same IV, so the deterministic mode round-trips. */
  lemma DecryptEncryptDeterministic(p: Primitives, key: string, text: string)
    requires Utf8RoundTrip(p) && CbcRoundTrip(p)
    ensures DecryptDeterministic(p, key, EncryptDeterministic(p, key, text)) == Ok(text)
  {
    LowerHexUtf16Length(EncryptDeterministic(p, key, text));
  }

  /** Distinct plaintexts never share a deterministic ciphertext, so equality search is exact. */
  lemma EncryptDeterministicInjective(p: Primitives, key: string, x: string, y: string)
    requires Utf8RoundTrip(p) && CbcRoundTrip(p)
    ensures EncryptDeterministic(p, key, x) == EncryptDeterministic(p, key, y) <==> x == y
  {
    if EncryptDeterministic(p, key, x) == EncryptDeterministic(p, key, y) {
      DecryptEncryptDeterministic(p, key, x);
      DecryptEncryptDeterministic(p, key, y);
    }
  }

  // ---------------------------------------------------------------- token hashing

  /** `hashToken(token)`: SHA-256 of the token's UTF-8 bytes as 64 lower-case hex digits. */
  function HashToken(p: Primitives, token: string): (h: string)
    ensures |h| == 64 && AllLowerHex(h)
  {
    Hex(p.sha256(p.utf8Encode(token)))
  }
}

=== FILE: mail.dfy ===
/** The mail service as a recorded effect: every `send` appends its message to an outbox. */
module Mail {

  datatype Message = Message(to: string, subject: string, template: string, context: string)

  class Mailer {
    var sent: seq<Message>

    constructor ()
      ensures sent == []
    {
      sent := [];
    }

    /** `mail.send(message)`; delivery itself is outside the model. */
    method Send(m: Message)
      modifies this
      ensures sent == old(sent) + [m]
    {
      sent := sent + [m];
    }
  }
}

=== FILE: otp.dfy ===
/**
 * The OTP store (src/utils/otp.ts): a process-local map from lower-cased e-mail to the
 * last code issued for it and its expiry. Codes are drawn from `Math.random`, whose
 * values are passed in; `Date.now()` is the explicit `now` parameter of each operation.
 */
module Otp {
  import opened Chars

  const OTP_LENGTH: nat := 6
  /** 10 minutes in milliseconds. */
  const OTP_TTL_MS: int := 600000

  datatype OtpEntry = OtpEntry(otp: string, expiresAt: int)

  type Entries = map<string, OtpEntry>

  // ---------------------------------------------------------------- code generation

  /** `Math.floor(r * 10).toString()` for one value `r` of `Math.random()`. */
  function DigitOf(r: real): (c: char)
    requires 0.0 <= r < 1.0
    ensures IsDigit(c)
  {
    DigitChar((r * 10.0).Floor)
  }

  predicate AreRandoms(draws: seq<real>) {
    forall i :: 0 <= i < |draws| ==> 0.0 <= draws[i] < 1.0
  }

  /** The code spelled by a sequence of `Math.random()` values, one digit per value. */
  function DigitsOf(draws: seq<real>): (code: string)
    requires AreRandoms(draws)
    ensures |code| == |draws| && AllDigits(code)
  {
    seq(|draws|, i requires 0 <= i < |draws| => DigitOf(draws[i]))
  }

  /** `randomDigits(length)`; `draws` are the values `Math.random()` returns, in call order. */
  method RandomDigits(length: nat, draws: seq<real>) returns (result: string)
    requires |draws| == length && AreRandoms(draws)
    ensures |result| == length && AllDigits(result)
    ensures result == DigitsOf(draws)
  {
    result := "";
    for i := 0 to length
      invariant |result| == i
      invariant forall k :: 0 <= k < i ==> result[k] == DigitOf(draws[k])
    {
      result := result + [DigitOf(draws[i])];
    }
  }

  /** A well-formed one-time code: exactly six decimal digits. */
  predicate IsOtpCode(code: string) {
    |code| == OTP_LENGTH && AllDigits(code)
  }

  /** `generateOtp()`. */
  method GenerateOtp(draws: seq<real>) returns (code: string)
    requires |draws| == OTP_LENGTH && AreRandoms(draws)
    ensures IsOtpCode(code)
    ensures code == DigitsOf(draws)
  {
    code := RandomDigits(OTP_LENGTH, draws);
  }

  // ---------------------------------------------------------------- store semantics

  /** Keys are compared after `toLowerCase()`. */
  function Key(email: string): string {
    Lower(email)
  }

  /** The entries after `storeOtp(email, otp)` at time `now`. */
  function Stored(m: Entries, email: string, otp: string, now: int): (m': Entries)
    ensures Key(email) in m' && m'[Key(email)] == OtpEntry(otp, now + OTP_TTL_MS)
    ensures forall k :: k != Key(email) ==> (k in m' <==> k in m)
    ensures forall k :: k != Key(email) && k in m ==> m'[k] == m[k]
  {
    m[Key(email) := OtpEntry(otp, now + OTP_TTL_MS)]
  }

  /** An entry is live until its expiry instant included: it lapses only once `now > expiresAt`. */
  predicate Live(m: Entries, email: string, now: int) {
    Key(email) in m && !(now > m[Key(email)].expiresAt)
  }

  /** What `verifyOtp(email, otp)` and `consumeOtp(email, otp)` return at time `now`. */
  predicate Accepts(m: Entries, email: string, otp: string, now: int) {
    Live(m, email, now) && m[Key(email)].otp == otp
  }

  /** The entries after `verifyOtp`: an expired entry it looks at is purged, nothing else changes. */
  function AfterVerify(m: Entries, email: string, now: int): (m': Entries)
    ensures Key(email) in m && now > m[Key(email)].expiresAt ==> m' == m - {Key(email)}
    ensures Key(email) !in m || Live(m, email, now) ==> m' == m
    ensures forall k :: k != Key(email) ==> (k in m' <==> k in m)
  {
    if Key(email) in m && now > m[Key(email)].expiresAt then m - {Key(email)} else m
  }

  /** The entries after `consumeOtp`: the entry is deleted on success; on failure as `verifyOtp`. */
  function AfterConsume(m: Entries, email: string, otp: string, now: int): (m': Entries)
    ensures Accepts(m, email, otp, now) ==> m' == m - {Key(email)}
    ensures !Accepts(m, email, otp, now) ==> m' == AfterVerify(m, email, now)
  {
    if Accepts(m, email, otp, now) then m - {Key(email)} else AfterVerify(m, email, now)
  }

  /** The module-level `otpStore` map. */
  class OtpStore {
    var entries: Entries

    constructor ()
      ensures entries == map[]
    {
      entries := map[];
    }

    /** `storeOtp(email, otp)`: overwrites any entry for the lower-cased e-mail. */
    method Store(email: string, otp: string, now: int)
      modifies this
      ensures entries == Stored(old(entries), email, otp, now)
    {
      entries := entries[Lower(email) := OtpEntry(otp, now + OTP_TTL_MS)];
    }

    /** `verifyOtp(email, otp)`. */
    method Verify(email: string, otp: string, now: int) returns (ok: bool)
      modifies this
      ensures ok == Accepts(old(entries), email, otp, now)
      ensures entries == AfterVerify(old(entries), email, now)
    {
      var key := Lower(email);
      if key !in entries {
        return false;
      }
      var entry := entries[key];
      if now > entry.expiresAt {
        entries := entries - {key};
        return false;
      }
      return entry.otp == otp;
    }

    /** `consumeOtp(email, otp)`: check, then delete on success. */
    method Consume(email: string, otp: string, now: int) returns (ok: bool)
      modifies this
      ensures ok == Accepts(old(entries), email, otp, now)
      ensures entries == AfterConsume(old(entries), email, otp, now)
    {
      ok := Verify(email, otp, now);
      if !ok {
        return;
      }
      entries := entries - {Lower(email)};
    }
  }

  // ---------------------------------------------------------------- properties

  /** A stored code is accepted, under any spelling of the e-mail's case, until its TTL runs out. */
  lemma StoreThenAccept(m: Entries, email: string, otp: string, t: int, email': string, otp': string, now: int)
    requires Key(email') == Key(email)
    ensures Accepts(Stored(m, email, otp, t), email', otp', now) <==> now <= t + OTP_TTL_MS && otp' == otp
  {
  }

  /** `storeOtp("A@B.com", c)` is found again by `verifyOtp("a@b.com", c)`. */
  lemma CaseInsensitiveLookup(m: Entries, otp: string, t: int)
    ensures Accepts(Stored(m, "A@B.com", otp, t), "a@b.com", otp, t)
  {
    assert Key("A@B.com") == Key("a@b.com") by {
      LowerIgnoresCase("A@B.com", "a@b.com");
    }
  }

  /** With no entry, verification fails and changes nothing. */
  lemma VerifyWithoutEntry(m: Entries, email: string, otp: string, now: int)
    requires Key(email) !in m
    ensures !Accepts(m, email, otp, now) && AfterVerify(m, email, now) == m
  {
  }

  /** The expiry boundary is strict: live at `expiresAt`, purged one millisecond later. */
  lemma ExpiryBoundary(m: Entries, email: string)
    requires Key(email) in m
    ensures Accepts(m, email, m[Key(email)].otp, m[Key(email)].expiresAt)
    ensures AfterVerify(m, email, m[Key(email)].expiresAt) == m
    ensures !Accepts(m, email, m[Key(email)].otp, m[Key(email)].expiresAt + 1)
    ensures AfterVerify(m, email, m[Key(email)].expiresAt + 1) == m - {Key(email)}
  {
  }

  /** At every instant after its expiry, a look at the entry refuses any code and purges it. */
  lemma PurgeAfterExpiry(m: Entries, email: string, otp: string, now: int)
    requires Key(email) in m && now > m[Key(email)].expiresAt
    ensures !Accepts(m, email, otp, now)
    ensures AfterVerify(m, email, now) == m - {Key(email)}
    ensures AfterConsume(m, email, otp, now) == m - {Key(email)}
  {
  }

  /** Verifying a live entry never changes the store, whatever code is offered. */
  lemma VerifyLiveUnchanged(m: Entries, email: string, now: int)
    requires Live(m, email, now)
    ensures AfterVerify(m, email, now) == m
  {
  }

  /** At-most-once: after a successful consume no code is accepted for that e-mail at any time. */
  lemma ConsumeAtMostOnce(m: Entries, email: string, otp: string, now: int, otp': string, later: int)
    requires Accepts(m, email, otp, now)
    ensures !Accepts(AfterConsume(m, email, otp, now), email, otp', later)
  {
  }

  /** A wrong code leaves a live entry in place, so the right code still works afterwards. */
  lemma WrongCodeKeepsEntry(m: Entries, email: string, otp: string, now: int)
    requires Live(m, email, now) && m[Key(email)].otp != otp
    ensures AfterConsume(m, email, otp, now) == m
    ensures Accepts(AfterConsume(m, email, otp, now), email, m[Key(email)].otp, now)
  {
  }

  /** Consume and verify touch only the key of the e-mail they are given. */
  lemma ConsumeLeavesOtherKeys(m: Entries, email: string, otp: string, now: int, k: string)
    requires k != Key(email) && k in m
    ensures k in AfterConsume(m, email, otp, now) && AfterConsume(m, email, otp, now)[k] == m[k]
  {
  }
}

=== FILE: primitives.dfy ===
/**
 * The foreign primitives the credential core calls but does not implement: the
 * UTF-8 codec of Node's `Buffer`, AES-256-GCM (NIST SP 800-38D), AES-256-CBC with
 * PKCS#7 padding (NIST SP 800-38A), SHA-256 (FIPS 180-4), bcrypt and JWT signing.
 *
 * Each is an uninterpreted function value in the `Primitives` record. What the model
 * relies on about them is stated once, as the laws below, and every lemma that needs a
 * law names it in its `requires`.
 */
module Primitives {
  import opened Wrappers

  newtype Byte = b: int | 0 <= b < 256

  type Bytes = seq<Byte>

  /** A SHA-256 digest is always 32 bytes long. */
  type Digest = d: Bytes | |d| == 32 witness seq(32, _ => 0 as Byte)

  /** A GCM authentication tag at Node's default length of 16 bytes. */
  type Tag = t: Bytes | |t| == 16 witness seq(16, _ => 0 as Byte)

  /** What `cipher.update` + `cipher.final` and `cipher.getAuthTag` give back for GCM. */
  datatype Sealed = Sealed(ciphertext: Bytes, tag: Tag)

  /** The claim set signed into both access and refresh tokens. */
  datatype TokenPayload = TokenPayload(userId: string, role: string)

  datatype Primitives = Primitives(
    utf8Encode: string -> Bytes,
    utf8Decode: Bytes -> string,
    /** key, iv, plaintext */
    gcmSeal: (Bytes, Bytes, Bytes) -> Sealed,
    /** key, iv, ciphertext, tag; None when `decipher.final` throws */
    gcmOpen: (Bytes, Bytes, Bytes, Bytes) -> Option<Bytes>,
    /** key, iv, plaintext */
    cbcEncrypt: (Bytes, Bytes, Bytes) -> Bytes,
    /** key, iv, ciphertext; None when `decipher.final` throws (bad padding) */
    cbcDecrypt: (Bytes, Bytes, Bytes) -> Option<Bytes>,
    sha256: Bytes -> Digest,
    /** password, cost factor, salt */
    bcryptHash: (string, int, Bytes) -> string,
    /** password, stored hash */
    bcryptCompare: (string, string) -> bool,
    /** payload, issue time in ms; `jsonwebtoken.sign` with the access secret and 15m lifetime */
    signAccess: (TokenPayload, int) -> string,
    /** payload, issue time in ms; `jsonwebtoken.sign` with the refresh secret and 7d lifetime */
    signRefresh: (TokenPayload, int) -> string
  )

  /** Decoding the UTF-8 encoding of a string gives the string back. */
  ghost predicate Utf8RoundTrip(p: Primitives) {
    forall s :: p.utf8Decode(p.utf8Encode(s)) == s
  }

  /** Only the empty string encodes to no bytes. */
  ghost predicate Utf8EmptyExactly(p: Primitives) {
    forall s :: p.utf8Encode(s) == [] <==> s == []
  }

  /** GCM is a counter mode: the ciphertext is exactly as long as the plaintext. */
  ghost predicate GcmLengthPreserving(p: Primitives) {
    forall k, iv, pt :: |p.gcmSeal(k, iv, pt).ciphertext| == |pt|
  }

  /** Opening what was sealed under the same key and IV, with its tag, gives the plaintext. */
  ghost predicate GcmRoundTrip(p: Primitives) {
    forall k, iv, pt | iv != [] ::
      p.gcmOpen(k, iv, p.gcmSeal(k, iv, pt).ciphertext, p.gcmSeal(k, iv, pt).tag) == Some(pt)
  }

  /** CBC decryption under the same key and IV undoes CBC encryption. */
  ghost predicate CbcRoundTrip(p: Primitives) {
    forall k, iv, pt :: p.cbcDecrypt(k, iv, p.cbcEncrypt(k, iv, pt)) == Some(pt)
  }

  /** `bcrypt.compare` accepts a password against any hash made from it. */
  ghost predicate BcryptSound(p: Primitives) {
    forall pw, rounds, salt :: p.bcryptCompare(pw, p.bcryptHash(pw, rounds, salt))
  }
}

=== FILE: tables.dfy ===
/**
 * The persisted tables the credential core reads and writes through Prisma, as
 * in-memory sequences of rows. Users are never deleted by the core, and the database
 * numbers them from 1 in insertion order, so a user's id is its position plus one.
 */
module Tables {
  import opened Wrappers

  type UserId = nat

  /** The Prisma enum `BLOODTYPE`. */
  datatype BloodType = A_pos | A_neg | B_pos | B_neg | O_pos | O_neg | AB_pos | AB_neg

  datatype User = User(
    id: UserId,
    username: string,
    firstName: string,
    lastName: string,
    email: string,
    passwordHash: string,
    phoneNumber: string,
    countryId: int,
    roleId: int,
    createdAt: int,
    lastLoginAt: Option<int>
  )

  datatype Patient = Patient(userId: UserId, dateOfBirth: string, gender: string, bloodType: BloodType, address: string)

  datatype Role = Role(id: int, role: string)

  datatype Country = Country(id: int, name: string, phoneCode: string)

  datatype RefreshToken = RefreshToken(token: string, userId: UserId, expiresAt: int)

  datatype ResetToken = ResetToken(hashedToken: string, userId: UserId, expiresAt: int)

  datatype Tables = Tables(
    users: seq<User>,
    patients: seq<Patient>,
    roles: seq<Role>,
    countries: seq<Country>,
    refreshTokens: seq<RefreshToken>,
    resetTokens: seq<ResetToken>
  )

  // ---------------------------------------------------------------- queries

  /** The position of the first row satisfying `p`: what `findFirst`/`findUnique` return. */
  function FindFirst<R>(rows: seq<R>, p: R -> bool): (r: Option<nat>)
    ensures r.Some? ==> r.value < |rows| && p(rows[r.value])
    ensures r.Some? ==> forall j :: 0 <= j < r.value ==> !p(rows[j])
    ensures r.None? ==> forall j :: 0 <= j < |rows| ==> !p(rows[j])
  {
    if rows == [] then None
    else if p(rows[0]) then Some(0)
    else match FindFirst(rows[1..], p)
      case None => None
      case Some(i) => Some(i + 1)
  }

  /** `deleteMany` keeps exactly the rows its `where` does not match, in their order. */
  function Where<R(==,!new)>(rows: seq<R>, keep: R -> bool): (kept: seq<R>)
    ensures |kept| <= |rows|
    ensures forall r :: r in kept <==> r in rows && keep(r)
  {
    if rows == [] then []
    else (if keep(rows[0]) then [rows[0]] else []) + Where(rows[1..], keep)
  }

  /** Filtering twice with the same predicate removes nothing more. */
  lemma {:induction false} WhereIdempotent<R(!new)>(rows: seq<R>, keep: R -> bool)
    ensures Where(Where(rows, keep), keep) == Where(rows, keep)
  {
    if rows != [] {
      WhereIdempotent(rows[1..], keep);
      WhereAppend((if keep(rows[0]) then [rows[0]] else []), Where(rows[1..], keep), keep);
    }
  }

  lemma {:induction false} WhereAppend<R(!new)>(a: seq<R>, b: seq<R>, keep: R -> bool)
    ensures Where(a + b, keep) == Where(a, keep) + Where(b, keep)
  {
    if a == [] {
      assert a + b == b;
    } else {
      assert (a + b)[0] == a[0] && (a + b)[1..] == a[1..] + b;
      WhereAppend(a[1..], b, keep);
    }
  }

  /** The rows a filter keeps and the rows it drops add up to the table. */
  lemma {:induction false} WherePartition<R(!new)>(rows: seq<R>, keep: R -> bool, drop: R -> bool)
    requires forall r :: drop(r) == !keep(r)
    ensures |Where(rows, keep)| + |Where(rows, drop)| == |rows|
  {
    if rows != [] {
      WherePartition(rows[1..], keep, drop);
    }
  }

  /** A filter that keeps every row changes nothing. */
  lemma {:induction false} WhereAll<R(!new)>(rows: seq<R>, keep: R -> bool)
    requires forall r :: r in rows ==> keep(r)
    ensures Where(rows, keep) == rows
  {
    if rows != [] {
      WhereAll(rows[1..], keep);
      assert [rows[0]] + rows[1..] == rows;
    }
  }

  /** Filtering keeps a column that was pairwise distinct pairwise distinct. */
  lemma {:induction false} WhereKeepsDistinct<R(!new), K>(rows: seq<R>, keep: R -> bool, key: R -> K)
    requires forall k, l :: 0 <= k < l < |rows| ==> key(rows[k]) != key(rows[l])
    ensures forall k, l :: 0 <= k < l < |Where(rows, keep)| ==> key(Where(rows, keep)[k]) != key(Where(rows, keep)[l])
  {
    if rows != [] {
      var tail := Where(rows[1..], keep);
      WhereKeepsDistinct(rows[1..], keep, key);
      forall l | 0 <= l < |tail|
        ensures key(tail[l]) != key(rows[0])
      {
        assert tail[l] in rows[1..];
      }
    }
  }

  function FindRoleByName(roles: seq<Role>, name: string): (r: Option<Role>)
    ensures r.Some? ==> r.value in roles && r.value.role == name
    ensures r.None? ==> forall k :: 0 <= k < |roles| ==> roles[k].role != name
  {
    match FindFirst(roles, (x: Role) => x.role == name)
    case None => None
    case Some(k) => Some(roles[k])
  }

  function FindRoleById(roles: seq<Role>, id: int): (r: Option<Role>)
    ensures r.Some? ==> r.value in roles && r.value.id == id
    ensures r.None? ==> forall k :: 0 <= k < |roles| ==> roles[k].id != id
  {
    match FindFirst(roles, (x: Role) => x.id == id)
    case None => None
    case Some(k) => Some(roles[k])
  }

  function FindCountry(countries: seq<Country>, id: int): (r: Option<Country>)
    ensures r.Some? ==> r.value in countries && r.value.id == id
    ensures r.None? ==> forall k :: 0 <= k < |countries| ==> countries[k].id != id
  {
    match FindFirst(countries, (x: Country) => x.id == id)
    case None => None
    case Some(k) => Some(countries[k])
  }

  /** `user.findFirst({ where: { OR: [{ email: identifier }, { username: identifier }] } })`. */
  function FindUserByIdentifier(users: seq<User>, identifier: string): (r: Option<nat>)
    ensures r.Some? ==>
      r.value < |users| && (users[r.value].email == identifier || users[r.value].username == identifier)
    ensures r.None? ==> forall i :: 0 <= i < |users| ==> users[i].email != identifier && users[i].username != identifier
  {
    FindFirst(users, (u: User) => u.email == identifier || u.username == identifier)
  }

  /** `user.findUnique({ where: { email } })`. */
  function FindUserByEmail(users: seq<User>, email: string): (r: Option<nat>)
    ensures r.Some? ==> r.value < |users| && users[r.value].email == email
    ensures r.None? ==> forall i :: 0 <= i < |users| ==> users[i].email != email
  {
    FindFirst(users, (u: User) => u.email == email)
  }

  /** `passwordResetToken.findUnique({ where: { hashedToken } })`. */
  function FindResetToken(rows: seq<ResetToken>, hashedToken: string): (r: Option<nat>)
    ensures r.Some? ==> r.value < |rows| && rows[r.value].hashedToken == hashedToken
    ensures r.None? ==> forall k :: 0 <= k < |rows| ==> rows[k].hashedToken != hashedToken
  {
    FindFirst(rows, (x: ResetToken) => x.hashedToken == hashedToken)
  }

  // ---------------------------------------------------------------- integrity

  /** Ids are numbered from 1 in insertion order. */
  ghost predicate UsersNumbered(users: seq<User>) {
    forall i :: 0 <= i < |users| ==> users[i].id == i + 1
  }

  /** The unique constraints of the user table: username, e-mail and (encrypted) phone. */
  ghost predicate UserKeysUnique(users: seq<User>) {
    forall i, j :: 0 <= i < j < |users| ==>
      users[i].username != users[j].username
      && users[i].email != users[j].email
      && users[i].phoneNumber != users[j].phoneNumber
  }

  /** Every user's role and country exist. */
  ghost predicate UserReferencesExist(users: seq<User>, roles: seq<Role>, countries: seq<Country>) {
    forall i :: 0 <= i < |users| ==>
      FindRoleById(roles, users[i].roleId).Some? && FindCountry(countries, users[i].countryId).Some?
  }

  /** Every patient row belongs to one of the first `userCount` users. */
  ghost predicate PatientOwnersExist(patients: seq<Patient>, userCount: nat) {
    forall k :: 0 <= k < |patients| ==> 1 <= patients[k].userId <= userCount
  }

  /** At most one patient row per user. */
  ghost predicate OnePatientPerUser(patients: seq<Patient>) {
    forall k, l :: 0 <= k < l < |patients| ==> patients[k].userId != patients[l].userId
  }

  /** Every refresh row belongs to one of the first `userCount` users. */
  ghost predicate RefreshOwnersExist(rows: seq<RefreshToken>, userCount: nat) {
    forall k :: 0 <= k < |rows| ==> 1 <= rows[k].userId <= userCount
  }

  /** Every reset row belongs to one of the first `userCount` users. */
  ghost predicate ResetOwnersExist(rows: seq<ResetToken>, userCount: nat) {
    forall k :: 0 <= k < |rows| ==> 1 <= rows[k].userId <= userCount
  }

  /** The unique constraint of the reset table: its hashed token. */
  ghost predicate ResetHashesUnique(rows: seq<ResetToken>) {
    forall k, l :: 0 <= k < l < |rows| ==> rows[k].hashedToken != rows[l].hashedToken
  }

  /** The constraints the database enforces, taken together. */
  ghost predicate Valid(t: Tables) {
    && UsersNumbered(t.users)
    && UserKeysUnique(t.users)
    && UserReferencesExist(t.users, t.roles, t.countries)
    && PatientOwnersExist(t.patients, |t.users|)
    && OnePatientPerUser(t.patients)
    && RefreshOwnersExist(t.refreshTokens, |t.users|)
    && ResetOwnersExist(t.resetTokens, |t.users|)
    && ResetHashesUnique(t.resetTokens)
  }

  // ---------------------------------------------------------------- writes that keep the constraints

  /** Inserting a user with the next id, no clashing key and existing references keeps the user constraints. */
  lemma InsertUserKeepsConstraints(users: seq<User>, roles: seq<Role>, countries: seq<Country>, u: User)
    requires UsersNumbered(users) && UserKeysUnique(users) && UserReferencesExist(users, roles, countries)
    requires u.id == |users| + 1 && !Clashes(users, u)
    requires FindRoleById(roles, u.roleId).Some? && FindCountry(countries, u.countryId).Some?
    ensures UsersNumbered(users + [u]) && UserKeysUnique(users + [u]) && UserReferencesExist(users + [u], roles, countries)
  {
    var users' := users + [u];
    forall i, j | 0 <= i < j < |users'|
      ensures users'[i].username != users'[j].username
           && users'[i].email != users'[j].email
           && users'[i].phoneNumber != users'[j].phoneNumber
    {
      assert users'[i] == users[i];
      if j < |users| {
        assert users'[j] == users[j];
      }
    }
  }

  /** Replacing a user by a record with the same id, keys and references keeps the user constraints. */
  lemma UpdateUserKeepsConstraints(users: seq<User>, roles: seq<Role>, countries: seq<Country>, i: nat, u: User)
    requires UsersNumbered(users) && UserKeysUnique(users) && UserReferencesExist(users, roles, countries)
    requires i < |users|
    requires u.id == users[i].id && u.username == users[i].username && u.email == users[i].email
    requires u.phoneNumber == users[i].phoneNumber && u.roleId == users[i].roleId && u.countryId == users[i].countryId
    ensures UsersNumbered(users[i := u]) && UserKeysUnique(users[i := u])
    ensures UserReferencesExist(users[i := u], roles, countries)
  {
  }

  /** A patient row for the next user keeps both patient constraints as the user table grows by one. */
  lemma InsertPatientKeepsConstraints(patients: seq<Patient>, userCount: nat, p: Patient)
    requires PatientOwnersExist(patients, userCount) && OnePatientPerUser(patients)
    requires p.userId == userCount + 1
    ensures PatientOwnersExist(patients + [p], userCount + 1) && OnePatientPerUser(patients + [p])
  {
    var patients' := patients + [p];
    forall k | 0 <= k < |patients'|
      ensures 1 <= patients'[k].userId <= userCount + 1
    {
      if k < |patients| {
        assert patients'[k] == patients[k];
      }
    }
    forall k, l | 0 <= k < l < |patients'|
      ensures patients'[k].userId != patients'[l].userId
    {
      assert patients'[k] == patients[k];
      if l < |patients| {
        assert patients'[l] == patients[l];
      }
    }
  }

  /** A refresh row of an existing user may be added, and the user table may grow. */
  lemma InsertRefreshKeepsOwners(rows: seq<RefreshToken>, userCount: nat, userCount': nat, row: RefreshToken)
    requires RefreshOwnersExist(rows, userCount) && userCount <= userCount'
    requires 1 <= row.userId <= userCount'
    ensures RefreshOwnersExist(rows + [row], userCount')
  {
    forall k | 0 <= k < |rows + [row]|
      ensures 1 <= (rows + [row])[k].userId <= userCount'
    {
      if k < |rows| {
        assert (rows + [row])[k] == rows[k];
      }
    }
  }

  /** A reset row of an existing user under a hash not yet present keeps both reset constraints. */
  lemma InsertResetKeepsConstraints(rows: seq<ResetToken>, userCount: nat, row: ResetToken)
    requires ResetOwnersExist(rows, userCount) && ResetHashesUnique(rows)
    requires 1 <= row.userId <= userCount && FindResetToken(rows, row.hashedToken).None?
    ensures ResetOwnersExist(rows + [row], userCount) && ResetHashesUnique(rows + [row])
  {
    var rows' := rows + [row];
    forall k | 0 <= k < |rows'|
      ensures 1 <= rows'[k].userId <= userCount
    {
      if k < |rows| {
        assert rows'[k] == rows[k];
      }
    }
    forall k, l | 0 <= k < l < |rows'|
      ensures rows'[k].hashedToken != rows'[l].hashedToken
    {
      assert rows'[k] == rows[k];
      if l < |rows| {
        assert rows'[l] == rows[l];
      }
    }
  }

  /** Deleting refresh rows (any filter) keeps their owners existing. */
  lemma FilterRefreshKeepsOwners(rows: seq<RefreshToken>, keep: RefreshToken -> bool, userCount: nat)
    requires RefreshOwnersExist(rows, userCount)
    ensures RefreshOwnersExist(Where(rows, keep), userCount)
  {
    var kept := Where(rows, keep);
    forall k | 0 <= k < |kept|
      ensures 1 <= kept[k].userId <= userCount
    {
      assert kept[k] in rows;
    }
  }

  /** Deleting reset rows (any filter) keeps both reset constraints. */
  lemma FilterResetKeepsConstraints(rows: seq<ResetToken>, keep: ResetToken -> bool, userCount: nat)
    requires ResetOwnersExist(rows, userCount) && ResetHashesUnique(rows)
    ensures ResetOwnersExist(Where(rows, keep), userCount) && ResetHashesUnique(Where(rows, keep))
  {
    var kept := Where(rows, keep);
    WhereKeepsDistinct(rows, keep, (r: ResetToken) => r.hashedToken);
    forall k | 0 <= k < |kept|
      ensures 1 <= kept[k].userId <= userCount
    {
      assert kept[k] in rows;
    }
  }

  /** A new user that would break a unique constraint of the user table. */
  predicate Clashes(users: seq<User>, u: User) {
    exists i :: 0 <= i < |users| &&
      (users[i].username == u.username || users[i].email == u.email || users[i].phoneNumber == u.phoneNumber)
  }

  /** The Prisma client's handle on the tables. */
  class Database {
    var users: seq<User>
    var patients: seq<Patient>
    var roles: seq<Role>
    var countries: seq<Country>
    var refreshTokens: seq<RefreshToken>
    var resetTokens: seq<ResetToken>

    function Snapshot(): Tables
      reads this
    {
      Tables(users, patients, roles, countries, refreshTokens, resetTokens)
    }

    /** A database holding only its reference data: the roles and the countries. */
    constructor (roles: seq<Role>, countries: seq<Country>)
      ensures Snapshot() == Tables([], [], roles, countries, [], [])
      ensures Valid(Snapshot())
    {
      this.users := [];
      this.patients := [];
      this.roles := roles;
      this.countries := countries;
      this.refreshTokens := [];
      this.resetTokens := [];
    }
  }
}

=== FILE: validation.dfy ===
/**
 * The request schema for patient registration (dist/validation/auth.js), field by field.
 *
 * Zod's `min`/`max` on strings count UTF-16 code units, so lengths are measured with
 * `Chars.Utf16Length`. The two checks that depend on a library or on the clock, `z.email` and
 * the "date of birth is in the past" refinement, enter as the verdicts `emailFormatOk`
 * and `dateOfBirthInPast`.
 */
module Validation {
  import opened Chars

  /** The parsed body the service receives (`RegisterPatientInput`). */
  datatype RegisterPatientInput = RegisterPatientInput(
    username: string,
    firstName: string,
    lastName: string,
    email: string,
    phoneNumber: string,
    password: string,
    confirmPassword: string,
    gender: string,
    bloodType: string,
    dateOfBirth: string,
    countryId: int,
    address: string,
    terms: bool,
    otp: string
  )

  const GENDERS: set<string> := {"M", "F"}
  const BLOOD_TYPES: set<string> := {"A+", "A-", "B+", "B-", "O+", "O-", "AB+", "AB-"}

  /** The class `[a-zA-Z0-9_]`. */
  predicate IsWordChar(c: char) {
    IsUpperAscii(c) || IsLowerAscii(c) || IsDigit(c) || c == '_'
  }

  /** The class `\s` of JavaScript regular expressions: ASCII and Unicode white space. */
  predicate IsJsWhitespace(c: char) {
    var n := c as int;
    (0x09 <= n <= 0x0D) || n == 0x20 || n == 0xA0 || n == 0x1680 || (0x2000 <= n <= 0x200A)
    || n == 0x2028 || n == 0x2029 || n == 0x202F || n == 0x205F || n == 0x3000 || n == 0xFEFF
  }

  /** 3 to 50 characters matching `^[a-zA-Z0-9_]+$`. */
  predicate ValidUsername(s: string)
    ensures ValidUsername(s) ==> 3 <= |s| <= 50 && '@' !in s
  {
    var ok := 3 <= Utf16Length(s) <= 50 && forall i :: 0 <= i < |s| ==> IsWordChar(s[i]);
    if ok then BmpUtf16Length(s); ok else ok
  }

  /** First and last names: 2 to 50 UTF-16 code units, any characters. */
  predicate ValidName(s: string)
    ensures ValidName(s) ==> 1 <= |s| <= 50
  {
    2 <= Utf16Length(s) <= 50
  }

  /** `z.email(...).max(30)`. */
  predicate ValidEmail(s: string, emailFormatOk: bool)
    ensures ValidEmail(s, emailFormatOk) ==> |s| <= 30
  {
    emailFormatOk && Utf16Length(s) <= 30
  }

  /** 1 to 15 characters matching `^[0-9\s]+$`: digits and white space only. */
  predicate ValidPhoneNumber(s: string)
    ensures ValidPhoneNumber(s) ==> 1 <= |s| <= 15 && |DigitsOnly(s)| <= 15
  {
    1 <= Utf16Length(s) <= 15 && forall i :: 0 <= i < |s| ==> IsDigit(s[i]) || IsJsWhitespace(s[i])
  }

  predicate HasUpper(s: string) { exists i :: 0 <= i < |s| && IsUpperAscii(s[i]) }
  predicate HasLower(s: string) { exists i :: 0 <= i < |s| && IsLowerAscii(s[i]) }
  predicate HasDigit(s: string) { exists i :: 0 <= i < |s| && IsDigit(s[i]) }

  /** At least 8 code units, with an upper-case letter, a lower-case letter and a digit. */
  predicate ValidPassword(s: string)
    ensures ValidPassword(s) ==> |s| >= 4
  {
    Utf16Length(s) >= 8 && HasUpper(s) && HasLower(s) && HasDigit(s)
  }

  predicate ValidGender(s: string) { s in GENDERS }

  predicate ValidBloodType(s: string) { s in BLOOD_TYPES }

  /** `z.number().int().positive()`. */
  predicate ValidCountryId(id: int) { id > 0 }

  /** 1 to 50 code units. */
  predicate ValidAddress(s: string)
    ensures ValidAddress(s) ==> s != []
  {
    1 <= Utf16Length(s) <= 50
  }

  /** `z.string().length(6).regex(/^[0-9]+$/)`. */
  predicate ValidOtp(s: string)
    ensures ValidOtp(s) ==> |s| == 6
  {
    var ok := Utf16Length(s) == 6 && forall i :: 0 <= i < |s| ==> IsDigit(s[i]);
    if ok then BmpUtf16Length(s); ok else ok
  }

  /** `sendOtpSchema`: the body of a code request, an e-mail that `z.email` accepts, of any length. */
  predicate SendOtpSchema(email: string, emailFormatOk: bool) {
    emailFormatOk
  }

  /** `registerPatientSchema`: every field check and the password confirmation refinement. */
  predicate RegisterPatientSchema(input: RegisterPatientInput, emailFormatOk: bool, dateOfBirthInPast: bool)
  {
    && ValidUsername(input.username)
    && ValidName(input.firstName)
    && ValidName(input.lastName)
    && ValidEmail(input.email, emailFormatOk)
    && ValidPhoneNumber(input.phoneNumber)
    && ValidPassword(input.password)
    && ValidGender(input.gender)
    && ValidBloodType(input.bloodType)
    && dateOfBirthInPast
    && ValidCountryId(input.countryId)
    && ValidAddress(input.address)
    && input.terms == true
    && ValidOtp(input.otp)
    && input.password == input.confirmPassword
  }

  /** What an accepted registration body guarantees to the service. */
  lemma AcceptedRegistration(input: RegisterPatientInput, emailFormatOk: bool, dateOfBirthInPast: bool)
    requires RegisterPatientSchema(input, emailFormatOk, dateOfBirthInPast)
    ensures input.password == input.confirmPassword && input.terms
    ensures input.countryId > 0 && input.address != [] && |input.firstName| >= 1 && |input.lastName| >= 1
    ensures input.bloodType in BLOOD_TYPES && input.gender in {"M", "F"}
    ensures |input.otp| == 6 && AllDigits(input.otp)
    ensures 3 <= |input.username| <= 50 && '@' !in input.username
  {
  }

  /** Any mismatch between password and confirmation rejects the whole body. */
  lemma MismatchedConfirmationRejected(input: RegisterPatientInput, emailFormatOk: bool, dateOfBirthInPast: bool)
    requires input.password != input.confirmPassword
    ensures !RegisterPatientSchema(input, emailFormatOk, dateOfBirthInPast)
  {
  }

  /** An ASCII OTP field is valid exactly when it is six decimal digits. */
  lemma {:induction false} ValidOtpIffSixDigits(s: string)
    ensures ValidOtp(s) <==> |s| == 6 && AllDigits(s)
  {
    if AllDigits(s) {
      BmpUtf16Length(s);
    }
  }

  /**
   * The phone check admits white space only: a body whose phone number is a single space
   * passes, and the service then normalises it to no digits at all.
   */
  lemma WhitespaceOnlyPhoneAccepted()
    ensures ValidPhoneNumber(" ") && DigitsOnly(" ") == ""
  {
  }

  /**
   * Every e-mail a registration body may carry can be sent a code, but not conversely: the
   * code request has no length limit, so a 31-character address gets a code that the
   * registration schema then refuses.
   */
  lemma SendOtpSchemaLooserThanRegistration(input: RegisterPatientInput, emailFormatOk: bool, dateOfBirthInPast: bool)
    ensures RegisterPatientSchema(input, emailFormatOk, dateOfBirthInPast) ==> SendOtpSchema(input.email, emailFormatOk)
    ensures SendOtpSchema(seq(31, _ => 'a'), true) && !ValidEmail(seq(31, _ => 'a'), true)
  {
  }
}

=== FILE: wrappers.dfy ===
/** Failure-carrying result types shared by every module of the model. */
module Wrappers {

  datatype Option<+T> = None | Some(value: T)

  /** The outcome of an operation that the source either returns from or throws out of. */
  datatype Result<+T, +E> = Ok(value: T) | Err(error: E)
}
